=== FILE: README.md ===
# pdf-watcher, modelled in Dafny

The watcher waits for `input.pdf` to appear in its directory. Once the file's size has stopped changing
for a quiet period, it converts the PDF into page images (`output-<n>.jpg`). It writes a base64 payload
(`output-<n>.b64`) beside each image and sends every payload to an OCR service. It then writes three
artifacts:

- the page texts, joined by blank lines;
- a structured JSON tree of blocks, paragraphs, words and symbols for each page;
- a per-page timing report.

This project models the decision logic of that run in Dafny. It covers:

- the file-stability gate;
- the classification of the converter's exit status;
- the `.jpg` to `.b64` naming;
- the per-page extraction loop with its error and skip paths;
- the OCR tree builder;
- the aggregation of the artifacts.

Every external effect is an input to the model rather than an action: the size samples, the converter's
result and the directory it leaves, and the OCR service's response for each payload name.

Modules, one concept each:

- `Base`: `Option` and `Result`.
- `Seqs`: order-preserving filtering, as a Python list comprehension with an `if` does it.
- `Text`: the Python string operations the code relies on. These are `''.join` and `sep.join`,
  `str.strip` over Python's whitespace set, `str.split` on one character, `str.replace`, and `int()` on
  a digit string. Each is exact on the inputs the program passes (see "Left out" for `int()`).
- `Sorting`: `sorted()` on strings, which is code-point lexicographic order, as an insertion sort.
- `StabilityGate`: `is_file_stable`, as a fold over a finite trace of size samples, plus the loop itself
  as a method.
- `Vision`: the OCR response tree and the break-type enumeration.
- `Structured`: the output tree and its builder. Each builder has a read-back function that recovers
  its input, so the builder is proved lossless apart from what it deliberately drops.
- `Naming`: the page file names, the payload renaming and the page-number parse.
- `Conversion`: the exit-code classifier and the sorted image list.
- `Extraction`: `extract_text_from_b64_images`.
- `Pipeline`: `process_pdf` end to end.

## Model

| member | source | states |
|---|---|---|
| StabilityGate.StepGate | pdf_watcher.py:49-63 | One poll. It answers False exactly when the file is missing. It answers True exactly when a non-empty file repeats the remembered size after the quiet period. A zero size changes nothing. Any other change of state resets to the new size and the current time. |
| StabilityGate.Gate | pdf_watcher.py:41-69 | The gate over a sample trace. A Stable answer is at a present, non-empty sample. A Vanished answer is at a missing sample. While undecided, every sample seen was present. |
| StabilityGate.IsFileStable | pdf_watcher.py:41-69 | The polling loop with the source's locals answers exactly as the fold does. When it answers stable, the state before that sample was waiting and quiet enough. |
| StabilityGate.GateDecisionIsFinal | pdf_watcher.py:60-67 | Once the gate answers on a prefix, no later sample changes the answer. |
| StabilityGate.GateDecidedOnPrefix | pdf_watcher.py:47-69 | The answer is already given on the prefix that ends at the deciding sample. |
| StabilityGate.GateIgnoresLaterSamples | pdf_watcher.py:47-69 | Two traces that agree up to the deciding sample get the same answer. |
| StabilityGate.GateVanishesAtMissing | pdf_watcher.py:65-67 | A missing sample reached while still waiting gives Vanished at that sample. |
| StabilityGate.MissingBeforeStableMeansVanished | pdf_watcher.py:47-67 | A trace with a missing sample is decided no later than that sample. If it is decided Stable, that happened strictly earlier. |
| StabilityGate.ZeroSizedFileNeverStable | pdf_watcher.py:52-55 | A file that only ever reports size 0 keeps the gate in its initial state. |
| StabilityGate.FirstNonzeroSampleNeverStable | pdf_watcher.py:52-59 | The first non-zero size after zero sizes never returns True. It starts the quiet period at that sample's time. |
| StabilityGate.StableOnlyWhenQuiet | pdf_watcher.py:61-63 | Stable is answered only when the remembered size repeats and at least the quiet period has passed since it first appeared. |
| StabilityGate.WaitingState | pdf_watcher.py:44-63 | The waiting state is either the initial one with all sizes zero, or a positive size with a start time. That start time is the time of a sample from which every non-zero size equals that size. |
| StabilityGate.StableAfterQuietPeriod | pdf_watcher.py:41-69 | Liveness: with non-decreasing times, a size held from sample i to sample j over at least the quiet period (zero readings allowed) makes the gate answer Stable between i and j. |
| StabilityGate.ZeroSampleKeepsQuietPeriod | pdf_watcher.py:52-63 | Sizes 5, 0, 5 at times 1, 2, 3 are stable at the third sample for any quiet period up to 2: the empty reading does not restart the period. |
| Vision.BreakOfCode | pdf_watcher.py:318-319 | A non-zero known break code maps to the enumeration member with that value. |
| Vision.BreakCodeRoundTrip | pdf_watcher.py:318-319 | Enumeration member to code and back is the identity. Distinct members have distinct names under `Vision.BreakName`, the `.name` string written to the output. |
| Structured.BoxOf | pdf_watcher.py:387-396 | A bounding box keeps every vertex's x and y in order. The polygon is recovered from it. |
| Structured.BuildSymbol | pdf_watcher.py:311-322 | A symbol record copies text and confidence. It carries a break tag exactly when the break code is non-zero. The tag is the enumeration member of that code, written out as its `Vision.BreakName`. The symbol is recovered from it. |
| Structured.BuildWord | pdf_watcher.py:297-324 | A word record carries its position as id and its symbols in order. Its text is the symbols' texts back to back. The word is recovered from it. |
| Structured.BuildParagraph | pdf_watcher.py:287-327 | A paragraph record carries its position as id and its words numbered 0..n-1. Its text, built by appending a space after each word and stripping, equals the word texts joined by single spaces and stripped. The paragraph is recovered from it. |
| Structured.BuildBlock | pdf_watcher.py:278-329 | A block record carries its position as id and its paragraphs numbered 0..n-1. The block is recovered from it. |
| Structured.BuildBlocks | pdf_watcher.py:276-329 | One annotation page's blocks, numbered by position, read back as that page's blocks. |
| Structured.BlocksOfPages | pdf_watcher.py:276-329 | The record's blocks read back as all the annotation's blocks, page after page, and each block is consistently numbered inside. |
| Structured.BlocksOfPagesSegment | pdf_watcher.py:276-280 | Each annotation page's stretch of the block list is that page's blocks built on their own, so block ids restart at 0 on every annotation page. |
| Structured.BuildPage | pdf_watcher.py:266-329 | A page record has the parsed page number and the annotation's full text. Its blocks read back as the annotation's blocks, and every block's paragraphs and words are consistently numbered. |
| Structured.BuildPageNumbersBlocksPerPage | pdf_watcher.py:276-280 | In a page record, each annotation page's blocks are numbered 0..n-1 and read back as that page's blocks. |
| Structured.SinglePageBlocksNumbered | pdf_watcher.py:276-280 | With one annotation page, block ids are 0..n-1 and the tree reads back as that page. |
| Structured.ParagraphTextOfTrimmedWords | pdf_watcher.py:297-326 | When every word text is non-empty and has no whitespace at either end, the paragraph text is exactly the words joined by single spaces. |
| Text.Concat | pdf_watcher.py:298 | The length of `''.join` is the sum of the part lengths. |
| Text.Join | pdf_watcher.py:370 | `sep.join` of k parts has the parts' total length plus exactly k-1 separators. |
| Text.Strip | pdf_watcher.py:326 | `strip()` leaves a contiguous slice with no whitespace at either end, and everything removed is whitespace. |
| Text.StripDropsTrailingSpace | pdf_watcher.py:299-326 | Appending a whitespace character does not change the stripped text. |
| Text.TerminatedStripIsJoinedStrip | pdf_watcher.py:299-326 | Stripping "every word followed by a space", which `Text.Terminated` builds as the loop at line 299 does, equals stripping the words joined by single spaces. |
| Text.Split | pdf_watcher.py:246 | `split(c)` yields at least one piece, no piece contains c, and joining the pieces with c gives back the input. |
| Text.SplitAtFirst | pdf_watcher.py:246 | The first piece of `split(c)` is everything before the first c. |
| Text.Replace | pdf_watcher.py:166 | `replace` with a replacement as long as the target keeps the string's length. |
| Text.ReplaceWithoutOccurrence | pdf_watcher.py:166 | A string in which the target never occurs comes back from `replace` unchanged. |
| Text.ReplaceKeepsPrefix | pdf_watcher.py:166 | `replace` leaves a prefix untouched when the prefix cannot start an occurrence of the target. |
| Text.ParseInt | pdf_watcher.py:246 | `int()` succeeds exactly on a non-empty run of decimal digits. |
| Text.ParseShowNat | pdf_watcher.py:246 | Reading back the decimal number the converter writes into a file name gives that number. |
| Seqs.Filter | pdf_watcher.py:143-146 | A list comprehension with an `if` keeps every element the condition accepts, keeps only such elements, draws each from the input and never adds copies. |
| Sorting.LexLeAtFirstDifference | pdf_watcher.py:230-233 | `Sorting.LexLe`, the order `sorted()` uses, holds exactly when the first string is a prefix of the second or has the smaller code point at the first position where they differ. |
| Sorting.SortLex | pdf_watcher.py:230-233 | `sorted()` returns the same names, as a multiset, in non-decreasing code-point order. |
| Sorting.SortedLexUnique | pdf_watcher.py:143-146 | Two sorted lists of the same names are equal, so the sorted order is determined. |
| Sorting.LexLeTotal | pdf_watcher.py:230-233 | Any two names are comparable under the string order. |
| Sorting.LexLeTransitive | pdf_watcher.py:230-233 | The string order is transitive. |
| Sorting.FilterSortedLex | pdf_watcher.py:243-263 | Skipping pages keeps the remaining names sorted. |
| Naming.PageNumberOf | pdf_watcher.py:246 | The page-number parse succeeds only on names containing `-`. |
| Naming.PageNumberOfPageFile | pdf_watcher.py:246 | Parsing the page number of `output-<k>` plus an extension starting with `.` gives k. |
| Naming.B64NameOf | pdf_watcher.py:166 | An image name and its payload name have the same length, and a name starting with `output-` keeps that prefix. |
| Naming.B64NameOfJpgName | pdf_watcher.py:166 | The payload name of any image name is a payload name, so the extraction picks it up. |
| Naming.B64NameOfPageImage | pdf_watcher.py:166 | The payload of `output-<k>.jpg` is `output-<k>.b64`. |
| Naming.ReplaceBeforeTarget | pdf_watcher.py:166 | A name ending in `.jpg` has that ending rewritten to `.b64` after the rest is rewritten. |
| Naming.SingleDigitPageNamesSortNumerically | pdf_watcher.py:230-233 | For single-digit pages, name order is page order. |
| Naming.PageTenSortsBeforePageTwo | pdf_watcher.py:230-233 | `output-10` sorts before `output-2` under the string order. |
| Conversion.ImageNames | pdf_watcher.py:143-146 | The image list is sorted and holds exactly the listing's `output-*.jpg` names. |
| Conversion.Classify | pdf_watcher.py:131-187 | Exit code 124 (line 131) or the expired deadline (the `TimeoutExpired` handler, lines 185-187) means timed out. Any other non-zero code means failure, and the code is kept. Success with no image means nothing to do. Otherwise the run goes on with the non-empty sorted image list. Each outcome is stated in both directions. |
| Conversion.B64NamesOf | pdf_watcher.py:158-170 | One payload name per image, in order, each the image name with `.jpg` replaced, each a payload name. |
| Extraction.PayloadNames | pdf_watcher.py:230-233 | The payload list is sorted and holds exactly the listing's `output-*.b64` names. |
| Extraction.ExtractPages | pdf_watcher.py:243-347 | The per-page loop succeeds exactly when every name has a parsable page number and every recognised page has known break codes. |
| Extraction.ExtractPagesLayout | pdf_watcher.py:243-347 | A successful loop has one text, one page record and one timing entry per recognised name, in name order. Each entry has that name's page number and that response's text and tree. |
| Extraction.ExtractPagesFailsAtFirst | pdf_watcher.py:243-319 | A failed loop names the first name it cannot get past. The error is a page-number error exactly when the page number does not parse. |
| Extraction.Extract | pdf_watcher.py:230-375 | Nothing is written exactly when the listing holds no payload name. The run aborts exactly when there is a payload and some payload cannot be processed. Artifacts are written exactly when there is a payload and every payload can be processed. What they hold is stated by `Extraction.ExtractWrittenLayout`. |
| Extraction.ExtractWrittenLayout | pdf_watcher.py:230-375 | The written artifacts hold the recognised payloads in sorted name order. Each page has its parsed page number and its response's text, and its structured record is the page tree built from that response under that number. The timing entry carries the same page number. The text artifact is the page texts joined by a blank line. |
| Extraction.TextArtifactLength | pdf_watcher.py:370 | The text artifact is the page texts plus exactly one blank line between neighbouring pages, or empty when no page was recognised. |
| Extraction.RecognisedPayloadIsWritten | pdf_watcher.py:230-263 | Every payload in the listing whose recognition reports no error has an entry in the written output. |
| Extraction.WrittenFilesAreListedPayloads | pdf_watcher.py:230-233 | Every written page comes from a payload name in the listing. |
| Extraction.ExtractPagesInNameOrder | pdf_watcher.py:243-347 | When every name is processable and recognised, the loop succeeds and its page records carry the names' page numbers in name order. |
| Extraction.AllRecognisedInNameOrder | pdf_watcher.py:230-347 | When every payload is recognised, the page records follow the sorted payload names one to one. |
| Extraction.TwoPayloadsInNameOrder | pdf_watcher.py:230-347 | Two recognised payloads are written in name order, whatever their page numbers. |
| Extraction.PageTenIsWrittenBeforePageTwo | pdf_watcher.py:230-246 | With pages 2 and 10 both recognised, the structured artifact lists page 10 before page 2. |
| Extraction.SingleDigitNamesInPageOrder | pdf_watcher.py:230-246 | Sorted single-digit page names parse to non-decreasing page numbers. |
| Extraction.SingleDigitPagesInPageOrder | pdf_watcher.py:230-246 | When every payload is a single-digit page, the structured artifact is in page order. |
| Pipeline.AddNames | pdf_watcher.py:158-170 | Writing files into a directory keeps every old name first and adds each written name, once. A listing without duplicates stays without duplicates. |
| Pipeline.ProcessPdf | pdf_watcher.py:71-190 | A run vanishes or keeps waiting exactly as the gate does. It times out or fails exactly as the classifier says, on a stable file. It finds no images exactly when conversion succeeded without one. It reaches extraction only after a stable file, exit code 0 and at least one image, and it never ends for want of payload files. |
| Pipeline.ExtractAfterConversion | pdf_watcher.py:158-183 | After conversion the run either aborts or completes. With at least one image, the payloads it writes are always found, so the run never stops for want of payload files. |
| Pipeline.CompletedIsWritten | pdf_watcher.py:143-183 | A completed run is the extraction over the listing with the converted images' payloads added. |
| Pipeline.CompletedPagesComeFromImages | pdf_watcher.py:143-183 | In a directory without old payloads, every written page is the payload of a converted image. |
| Pipeline.WrittenPagesComeFromImages | pdf_watcher.py:158-233 | Over a listing without payload files, the extraction after writing the images' payloads writes only pages of those payloads. |
| Pipeline.RecognisedImagesAreWritten | pdf_watcher.py:158-263 | Every converted image whose payload is recognised has its page written. |
| Pipeline.OneImageRunCompletes | pdf_watcher.py:71-375 | The success path is reachable. After a stable gate and exit code 0, a directory holding one page image whose payload is recognised completes the run. The artifacts hold exactly that page: its text, its page tree and one timing entry naming the payload. |
| Pipeline.OnePageRunCompletes | pdf_watcher.py:71-375 | For the converter's own name `output-<k>.jpg`, that completed run writes page k: its tree is numbered k and so is its timing entry. |

### Where the code and its design description differ

The design description asks for pages in ascending numeric page order. The code sorts file names with
`sorted()` (pdf_watcher.py:143-146, 230-233), which compares code points. The model follows the code.

`Extraction.PageTenIsWrittenBeforePageTwo` proves the consequence: with pages 2 and 10 both recognised,
page 10's record comes first. `Extraction.SingleDigitPagesInPageOrder` proves that the two orders agree
while all page numbers are below 10.

The description resets the quiet period when the file reads as empty. The code skips an empty reading
without touching its state (pdf_watcher.py:52-55), so a size seen before and after an empty reading counts
as held since the first sighting. The model follows the code; `StabilityGate.ZeroSampleKeepsQuietPeriod`
shows a trace that the gate declares stable only because of this.

The description says a page's failure never aborts the run. In the code only an OCR error message skips
a page (pdf_watcher.py:261-263). A payload name whose page number does not parse (line 246), or a break code
outside the enumeration (line 319), raises out of the loop and nothing is written. The model follows the
code: `Extraction.Extract` and `Extraction.ExtractPagesFailsAtFirst` state when the run aborts.

The description also speaks of 4-vertex boxes and confidences in [0, 1]. The code copies whatever the
service returns, and so does the model.

## Left out

- The directory observer, `on_created`, its one-second delay, `main`, the `KeyboardInterrupt` shutdown and `load_dotenv`: process set-up and event delivery, not decisions.
- The `pdfinfo` call (pdf_watcher.py:87-103): its result is only printed and never affects the run.
- Running the converter, reading and writing files, and base64 encoding and decoding: the converter's result and the resulting directory listing are inputs. Base64 is a bijection the model need not see, because the OCR service is modelled as a function of the payload name. The model assumes every file operation succeeds. In the code a failing one raises and ends the run through the handlers at pdf_watcher.py:188-193: the `getsize` after the gate (line 84), the `stat`, `open` and `write` of each image and payload (lines 160-170), and the `open` of each payload (line 248).
- Every clock reading, duration and average (the timing fields other than page, file and text length), and the `processing_timing.json` summary in the `finally` block: these are wall-clock values that are only reported.
- JSON serialisation and indentation, and all printing and logging.
- Exceptions raised by the OCR client itself, such as network errors: the service is a total function from payload name to response. Only the response's error message and annotation are modelled.
- Symbol bounding boxes: the code never reads them.
- Text.ParseInt: accepts only ASCII digit strings. Python's `int()` also accepts a sign, surrounding whitespace, underscores and other Unicode decimal digits. The converter writes plain decimal numbers, so these inputs do not arise from its names.
- StabilityGate.StepGate: tests `stable_start` as present or absent. Python's `elif stable_start` would also treat a start time of exactly 0.0 as absent, which a wall clock never reports.
- StabilityGate.Gate: runs over a finite trace, so an answer may still be pending. The source loops until the file settles or disappears.
- StabilityGate.StableAfterQuietPeriod: assumes sample times never decrease and that the held size is seen at two distinct samples. The source assumes a monotone clock without checking it.
- Structured.BuildPage: requires every break code to be a known enumeration value. An unknown code makes the enumeration raise, and `Extraction.ExtractPages` models that path as an abort before any page is built.
- Confidence values are opaque reals copied through unchanged. No floating-point arithmetic is modelled.

=== FILE: base.dfy ===
/** The optional value and the success-or-error outcome shared by every module of the watcher model. */
module Base {

  /** A value that may be absent: Python's `None` versus a set value. */
  datatype Option<+T> = None | Some(value: T)

  /** The outcome of a step that may raise: a value, or the error that aborted it. */
  datatype Result<+T, +E> = Success(value: T) | Failure(error: E)
}

=== FILE: conversion.dfy ===
/**
 * What the run does with the converter's result: the `timeout 600 convert ...` subprocess is external,
 * so its exit code (or the 610-second subprocess deadline expiring) and the directory listing it leaves
 * behind are inputs; the model decides whether the run goes on and with which page images.
 */
module Conversion {
  import opened Seqs
  import opened Sorting
  import opened Naming

  /** How the conversion subprocess ended. */
  datatype ConversionRun = Exited(code: int) | Expired

  /** Exit code `timeout` reports when it had to stop the converter. */
  const TimeoutExitCode: int := 124

  datatype ConversionOutcome =
    | TimedOut
    | ToolFailed(code: int)
    | NoImages
    | Converted(images: seq<string>)

  /** The page images in a directory listing, in `sorted()` order. */
  function ImageNames(listing: seq<string>): (r: seq<string>)
    ensures SortedLex(r)
    ensures multiset(r) == multiset(Filter(listing, IsJpgName))
    ensures forall i :: 0 <= i < |r| ==> IsJpgName(r[i]) && r[i] in listing
    ensures forall i :: 0 <= i < |listing| && IsJpgName(listing[i]) ==> listing[i] in r
  {
    var kept := Filter(listing, IsJpgName);
    var r := SortLex(kept);
    SameMembers(r, kept);
    r
  }

  /** Sequences with the same multiset have the same members. */
  lemma SameMembers(a: seq<string>, b: seq<string>)
    requires multiset(a) == multiset(b)
    ensures forall i :: 0 <= i < |a| ==> a[i] in b
    ensures forall i :: 0 <= i < |b| ==> b[i] in a
  {
    forall i | 0 <= i < |a| ensures a[i] in b {
      assert a[i] in multiset(a);
    }
    forall i | 0 <= i < |b| ensures b[i] in a {
      assert b[i] in multiset(b);
    }
  }

  /**
   * Exit code 124 or the expired deadline: timed out; any other non-zero code: failed; success with no
   * `output-*.jpg` in the directory: nothing to do; otherwise go on with the sorted image names.
   */
  function Classify(run: ConversionRun, listing: seq<string>): (r: ConversionOutcome)
    ensures r == TimedOut <==> run == Expired || run == Exited(TimeoutExitCode)
    ensures r.ToolFailed? <==> run.Exited? && run.code != 0 && run.code != TimeoutExitCode
    ensures r.ToolFailed? ==> r.code == run.code
    ensures r == NoImages <==> run == Exited(0) && forall i :: 0 <= i < |listing| ==> !IsJpgName(listing[i])
    ensures r.Converted? <==> run == Exited(0) && exists i :: 0 <= i < |listing| && IsJpgName(listing[i])
    ensures r.Converted? ==> |r.images| > 0 && r.images == ImageNames(listing)
  {
    match run
    case Expired => TimedOut
    case Exited(code) =>
      if code == TimeoutExitCode then TimedOut
      else if code != 0 then ToolFailed(code)
      else
        var images := ImageNames(listing);
        if |images| == 0 then NoImages else Converted(images)
  }

  /** The payload names written for the page images, one per image, in the same order. */
  function B64NamesOf(images: seq<string>): (r: seq<string>)
    requires forall i :: 0 <= i < |images| ==> IsJpgName(images[i])
    ensures |r| == |images|
    ensures forall i :: 0 <= i < |r| ==> r[i] == B64NameOf(images[i]) && IsB64Name(r[i])
  {
    assert forall i :: 0 <= i < |images| ==> IsB64Name(B64NameOf(images[i])) by {
      forall i | 0 <= i < |images| ensures IsB64Name(B64NameOf(images[i])) {
        B64NameOfJpgName(images[i]);
      }
    }
    seq(|images|, i requires 0 <= i < |images| => B64NameOf(images[i]))
  }
}

=== FILE: extraction.dfy ===
/**
 * Text extraction over the encoded page payloads: list `output-*.b64`, sort the names, and for each one
 * read its page number, take the OCR response, skip the page when the response carries an error
 * message, and otherwise build its structured record. The surviving pages' texts are joined with a
 * blank line into the text artifact; their records form the structured artifact.
 */
module Extraction {
  import opened Base
  import opened Seqs
  import opened Text
  import opened Sorting
  import opened Vision
  import opened Structured
  import opened Naming

  /** Why the per-page loop raised; either one aborts the whole extraction before anything is written. */
  datatype Error =
    | BadPageNumber(file: string)     // `int(...)` rejected the page token of this name
    | UnknownBreakType(file: string)  // the break-type enumeration rejected a code in this page's response

  /** The non-clock part of a page's timing entry. */
  datatype PageTiming = PageTiming(page: nat, file: string, textLength: nat)

  /** The three lists the loop accumulates. */
  datatype Pages = Pages(texts: seq<string>, structured: seq<PageData>, timings: seq<PageTiming>)

  /** What a finished extraction writes: the text file, the structured JSON and the pages of the timing JSON. */
  datatype Artifacts = Artifacts(text: string, structured: seq<PageData>, timings: seq<PageTiming>)

  datatype ExtractionOutcome =
    | NoPayloads              // no `output-*.b64` file: nothing is written
    | Aborted(error: Error)   // the loop raised: nothing is written
    | Written(artifacts: Artifacts)

  /** Separator between page texts in the text artifact. */
  const PageSeparator: string := "\n\n"

  /** The payload names in `sorted()` order. */
  function PayloadNames(listing: seq<string>): (r: seq<string>)
    ensures SortedLex(r)
    ensures multiset(r) == multiset(Filter(listing, IsB64Name))
  {
    SortLex(Filter(listing, IsB64Name))
  }

  /** The names whose OCR response has an empty error message, in order. */
  function Kept(names: seq<string>, ocr: string -> Response): seq<string> {
    Filter(names, (n: string) => ocr(n).errorMessage == "")
  }

  /** The loop gets past this name: its page number parses and, if recognised, its break codes are all known. */
  predicate Processable(ocr: string -> Response, name: string) {
    PageNumberOf(name).Some? && (ocr(name).errorMessage == "" ==> AnnotationCodesKnown(ocr(name).annotation))
  }

  /** Entry `i` of the three lists describes the recognised page stored under `name`. */
  predicate DescribesPage(p: Pages, i: nat, name: string, ocr: string -> Response)
    requires i < |p.texts| && i < |p.structured| && i < |p.timings|
  {
    && PageNumberOf(name).Some?
    && AnnotationCodesKnown(ocr(name).annotation)
    && p.texts[i] == ocr(name).annotation.text
    && p.structured[i] == BuildPage(PageNumberOf(name).value, ocr(name))
    && p.timings[i] == PageTiming(PageNumberOf(name).value, name, |ocr(name).annotation.text|)
  }

  /** One step of the loop on a recognised, processable page. */
  function PrependPage(name: string, page: nat, resp: Response, rest: Pages): Pages
    requires AnnotationCodesKnown(resp.annotation)
  {
    Pages([resp.annotation.text] + rest.texts, [BuildPage(page, resp)] + rest.structured,
          [PageTiming(page, name, |resp.annotation.text|)] + rest.timings)
  }

  /** The per-page loop, failing at the first name it cannot get past; succeeds exactly when every name is processable. */
  function ExtractPages(names: seq<string>, ocr: string -> Response): (r: Result<Pages, Error>)
    ensures r.Success? <==> forall i :: 0 <= i < |names| ==> Processable(ocr, names[i])
    decreases |names|
  {
    if |names| == 0 then Success(Pages([], [], []))
    else
      var name := names[0];
      AllProcessableCons(names, ocr);
      match PageNumberOf(name)
      case None => Failure(BadPageNumber(name))
      case Some(page) =>
        var resp := ocr(name);
        if resp.errorMessage != "" then
          ExtractPages(names[1..], ocr)
        else if !AnnotationCodesKnown(resp.annotation) then
          Failure(UnknownBreakType(name))
        else
          match ExtractPages(names[1..], ocr)
          case Failure(e) => Failure(e)
          case Success(rest) => Success(PrependPage(name, page, resp, rest))
  }

  /** Every name is processable exactly when the first one is and every later one is. */
  lemma AllProcessableCons(names: seq<string>, ocr: string -> Response)
    requires |names| > 0
    ensures (forall i :: 0 <= i < |names| ==> Processable(ocr, names[i]))
        <==> Processable(ocr, names[0]) && forall i :: 0 <= i < |names[1..]| ==> Processable(ocr, names[1..][i])
  {
    assert forall i :: 0 < i < |names| ==> names[i] == names[1..][i - 1];
  }

  lemma KeptCons(names: seq<string>, ocr: string -> Response)
    requires |names| > 0
    ensures Kept(names, ocr) == (if ocr(names[0]).errorMessage == "" then [names[0]] else []) + Kept(names[1..], ocr)
  {
  }

  /** How the loop treats a processable first name, given that the rest of the loop succeeds. */
  lemma ExtractPagesStep(names: seq<string>, ocr: string -> Response)
    requires |names| > 0 && Processable(ocr, names[0]) && ExtractPages(names[1..], ocr).Success?
    ensures ocr(names[0]).errorMessage != "" ==> ExtractPages(names, ocr) == ExtractPages(names[1..], ocr)
    ensures ocr(names[0]).errorMessage == "" ==>
      ExtractPages(names, ocr) == Success(PrependPage(names[0], PageNumberOf(names[0]).value, ocr(names[0]), ExtractPages(names[1..], ocr).value))
  {
  }

  /** The list invariant of the loop: entry `i` of each list describes `names[i]`. */
  predicate DescribesAll(p: Pages, names: seq<string>, ocr: string -> Response) {
    && |p.texts| == |names| && |p.structured| == |names| && |p.timings| == |names|
    && forall i :: 0 <= i < |names| ==> DescribesPage(p, i, names[i], ocr)
  }

  lemma DescribesPrepended(name: string, ocr: string -> Response, rest: Pages, names: seq<string>)
    requires PageNumberOf(name).Some? && AnnotationCodesKnown(ocr(name).annotation)
    requires DescribesAll(rest, names, ocr)
    ensures DescribesAll(PrependPage(name, PageNumberOf(name).value, ocr(name), rest), [name] + names, ocr)
  {
    var p := PrependPage(name, PageNumberOf(name).value, ocr(name), rest);
    var all := [name] + names;
    forall i | 0 <= i < |all| ensures DescribesPage(p, i, all[i], ocr) {
      if i > 0 {
        DescribesShifted(p, rest, i, all[i], ocr);
      }
    }
  }

  /** Entry `i` of `p` is entry `i - 1` of `rest`, so it describes the same name. */
  lemma DescribesShifted(p: Pages, rest: Pages, i: nat, name: string, ocr: string -> Response)
    requires 0 < i < |p.texts| && i < |p.structured| && i < |p.timings|
    requires |p.texts| == |rest.texts| + 1 && |p.structured| == |rest.structured| + 1 && |p.timings| == |rest.timings| + 1
    requires p.texts[1..] == rest.texts && p.structured[1..] == rest.structured && p.timings[1..] == rest.timings
    requires DescribesPage(rest, i - 1, name, ocr)
    ensures DescribesPage(p, i, name, ocr)
  {
    assert p.texts[i] == rest.texts[i - 1] && p.structured[i] == rest.structured[i - 1] && p.timings[i] == rest.timings[i - 1];
  }

  /** A successful loop holds one entry per recognised name, in order, in each of its three lists. */
  lemma {:induction false} ExtractPagesLayout(names: seq<string>, ocr: string -> Response)
    requires ExtractPages(names, ocr).Success?
    ensures DescribesAll(ExtractPages(names, ocr).value, Kept(names, ocr), ocr)
    decreases |names|
  {
    if |names| > 0 {
      var name := names[0];
      var tail := names[1..];
      assert Processable(ocr, name) && ExtractPages(tail, ocr).Success?;
      KeptCons(names, ocr);
      ExtractPagesStep(names, ocr);
      ExtractPagesLayout(tail, ocr);
      if ocr(name).errorMessage == "" {
        DescribesPrepended(name, ocr, ExtractPages(tail, ocr).value, Kept(tail, ocr));
      }
    }
  }

  /** The loop stops at entry `i` with error `e`: every earlier name is processable and this one is not, for the reason `e` gives. */
  predicate FailsAt(names: seq<string>, ocr: string -> Response, e: Error, i: int) {
    && 0 <= i < |names| && !Processable(ocr, names[i]) && e.file == names[i]
    && (forall j :: 0 <= j < i ==> Processable(ocr, names[j]))
    && (e.BadPageNumber? <==> PageNumberOf(names[i]).None?)
  }

  /** A failed loop names the first name it could not get past, and says which of the two reasons applied. */
  lemma {:induction false} ExtractPagesFailsAtFirst(names: seq<string>, ocr: string -> Response)
    requires ExtractPages(names, ocr).Failure?
    ensures exists i :: FailsAt(names, ocr, ExtractPages(names, ocr).error, i)
    decreases |names|
  {
    var e := ExtractPages(names, ocr).error;
    if Processable(ocr, names[0]) {
      ExtractPagesFailStep(names, ocr);
      ExtractPagesFailsAtFirst(names[1..], ocr);
      var k :| FailsAt(names[1..], ocr, e, k);
      FailsAtShifted(names, ocr, e, k);
    } else {
      assert FailsAt(names, ocr, e, 0);
    }
  }

  /** Past a processable first name, a failed loop fails on the rest of the names, with the same error. */
  lemma ExtractPagesFailStep(names: seq<string>, ocr: string -> Response)
    requires |names| > 0 && Processable(ocr, names[0]) && ExtractPages(names, ocr).Failure?
    ensures ExtractPages(names[1..], ocr).Failure?
    ensures ExtractPages(names, ocr).error == ExtractPages(names[1..], ocr).error
  {
  }

  lemma FailsAtShifted(names: seq<string>, ocr: string -> Response, e: Error, k: int)
    requires |names| > 0 && Processable(ocr, names[0]) && FailsAt(names[1..], ocr, e, k)
    ensures FailsAt(names, ocr, e, k + 1)
  {
    assert names[k + 1] == names[1..][k];
    forall j | 0 <= j < k + 1 ensures Processable(ocr, names[j]) {
      if j > 0 { assert names[j] == names[1..][j - 1]; }
    }
  }

  /** The page numbers parsed from names the loop gets past. */
  function PageNumbers(names: seq<string>): seq<nat>
    requires forall i :: 0 <= i < |names| ==> PageNumberOf(names[i]).Some?
  {
    seq(|names|, i requires 0 <= i < |names| => PageNumberOf(names[i]).value)
  }

  /** A written extraction whose structured pages carry exactly these page numbers, in this order. */
  predicate WritesPages(r: ExtractionOutcome, pageNumbers: seq<nat>) {
    && r.Written?
    && |r.artifacts.structured| == |pageNumbers|
    && forall i :: 0 <= i < |pageNumbers| ==> r.artifacts.structured[i].pageNumber == pageNumbers[i]
  }

  function FullTexts(pages: seq<PageData>): seq<string> {
    seq(|pages|, i requires 0 <= i < |pages| => pages[i].fullText)
  }

  function TimingFiles(timings: seq<PageTiming>): seq<string> {
    seq(|timings|, i requires 0 <= i < |timings| => timings[i].file)
  }

  /**
   * The whole extraction: nothing is written when there is no payload name, or when the loop cannot get
   * past one of them; otherwise the three artifacts are written.
   */
  function Extract(listing: seq<string>, ocr: string -> Response): (r: ExtractionOutcome)
    ensures r == NoPayloads <==> forall i :: 0 <= i < |listing| ==> !IsB64Name(listing[i])
    ensures r.Aborted? <==>
      && (exists i :: 0 <= i < |listing| && IsB64Name(listing[i]))
      && (exists i :: 0 <= i < |PayloadNames(listing)| && !Processable(ocr, PayloadNames(listing)[i]))
    ensures r.Written? <==>
      && (exists i :: 0 <= i < |listing| && IsB64Name(listing[i]))
      && (forall i :: 0 <= i < |PayloadNames(listing)| ==> Processable(ocr, PayloadNames(listing)[i]))
  {
    var names := PayloadNames(listing);
    PayloadNamesEmpty(listing);
    if |names| == 0 then NoPayloads
    else
      match ExtractPages(names, ocr)
      case Failure(e) => Aborted(e)
      case Success(p) => Written(Artifacts(Join(p.texts, PageSeparator), p.structured, p.timings))
  }

  lemma PayloadNamesEmpty(listing: seq<string>)
    ensures |PayloadNames(listing)| == 0 <==> forall i :: 0 <= i < |listing| ==> !IsB64Name(listing[i])
  {
    var f := Filter(listing, IsB64Name);
    assert |PayloadNames(listing)| == |multiset(PayloadNames(listing))| == |multiset(f)| == |f|;
    if |f| > 0 {
      assert f[0] in listing;
    }
  }

  /**
   * What a written extraction holds: one structured record and one timing entry per recognised payload,
   * in sorted name order, each carrying the page number parsed from its name, and a text artifact that is
   * exactly those pages' texts joined by a blank line.
   */
  lemma ExtractWrittenLayout(listing: seq<string>, ocr: string -> Response)
    requires Extract(listing, ocr).Written?
    ensures
      var a := Extract(listing, ocr).artifacts;
      var kept := Kept(PayloadNames(listing), ocr);
      && |a.structured| == |kept| && |a.timings| == |kept|
      && a.text == Join(FullTexts(a.structured), PageSeparator)
      && TimingFiles(a.timings) == kept
      && SortedLex(TimingFiles(a.timings))
      && (forall i :: 0 <= i < |kept| ==>
            && ocr(kept[i]).errorMessage == ""
            && PageNumberOf(kept[i]).Some?
            && a.structured[i].pageNumber == PageNumberOf(kept[i]).value
            && a.timings[i].page == a.structured[i].pageNumber
            && a.structured[i].fullText == ocr(kept[i]).annotation.text
            && a.structured[i] == BuildPage(PageNumberOf(kept[i]).value, ocr(kept[i])))
  {
    var names := PayloadNames(listing);
    var r := ExtractPages(names, ocr);
    assert |names| > 0 && r.Success?;
    var p := r.value;
    assert Extract(listing, ocr).artifacts == Artifacts(Join(p.texts, PageSeparator), p.structured, p.timings);
    var kept := Kept(names, ocr);
    ExtractPagesLayout(names, ocr);
    DescribedLists(p, kept, ocr);
    FilterSortedLex(names, (n: string) => ocr(n).errorMessage == "");
  }

  /** What the list invariant says entry by entry. */
  lemma DescribedLists(p: Pages, names: seq<string>, ocr: string -> Response)
    requires DescribesAll(p, names, ocr)
    ensures FullTexts(p.structured) == p.texts
    ensures TimingFiles(p.timings) == names
    ensures forall i :: 0 <= i < |names| ==>
      && PageNumberOf(names[i]).Some?
      && p.structured[i].pageNumber == PageNumberOf(names[i]).value
      && p.timings[i].page == p.structured[i].pageNumber
      && p.structured[i].fullText == ocr(names[i]).annotation.text
      && p.structured[i] == BuildPage(PageNumberOf(names[i]).value, ocr(names[i]))
  {
    forall i | 0 <= i < |names|
      ensures p.structured[i].fullText == p.texts[i] && p.timings[i].file == names[i]
      ensures p.structured[i].pageNumber == PageNumberOf(names[i]).value == p.timings[i].page
    {
      assert DescribesPage(p, i, names[i], ocr);
    }
  }

  /** The text artifact is the page texts plus one blank-line separator between neighbouring pages. */
  lemma TextArtifactLength(listing: seq<string>, ocr: string -> Response)
    requires Extract(listing, ocr).Written?
    ensures
      var a := Extract(listing, ocr).artifacts;
      |a.structured| > 0 ==> |a.text| == TotalLength(FullTexts(a.structured)) + 2 * (|a.structured| - 1)
    ensures
      var a := Extract(listing, ocr).artifacts;
      |a.structured| == 0 ==> a.text == ""
  {
    ExtractWrittenLayout(listing, ocr);
  }

  /** Every recognised payload in the listing has its entry in a written extraction. */
  lemma RecognisedPayloadIsWritten(listing: seq<string>, ocr: string -> Response, name: string)
    requires Extract(listing, ocr).Written?
    requires name in listing && IsB64Name(name) && ocr(name).errorMessage == ""
    ensures exists i :: 0 <= i < |Extract(listing, ocr).artifacts.timings| && Extract(listing, ocr).artifacts.timings[i].file == name
  {
    ExtractWrittenLayout(listing, ocr);
    var names := PayloadNames(listing);
    var j :| 0 <= j < |listing| && listing[j] == name;
    assert name in Filter(listing, IsB64Name);
    assert name in multiset(names);
    var k :| 0 <= k < |names| && names[k] == name;
    var kept := Kept(names, ocr);
    assert name in kept;
    var i :| 0 <= i < |kept| && kept[i] == name;
    assert TimingFiles(Extract(listing, ocr).artifacts.timings)[i] == name;
  }

  /** Two payload names in reverse name order come out swapped. */
  lemma TwoPayloadNamesSorted(first: string, second: string)
    requires IsB64Name(first) && IsB64Name(second)
    requires LexLe(second, first)
    ensures PayloadNames([first, second]) == [second, first]
  {
    var listing := [first, second];
    forall i | 0 <= i < |listing| ensures IsB64Name(listing[i]) {
      if i == 0 { assert listing[i] == first; } else { assert listing[i] == second; }
    }
    TwoSortedLex(second, first);
    PayloadNamesOfPayloads(listing, [second, first]);
  }

  /** A listing of payload names only comes out as its one ascending arrangement. */
  lemma PayloadNamesOfPayloads(listing: seq<string>, sorted: seq<string>)
    requires forall i :: 0 <= i < |listing| ==> IsB64Name(listing[i])
    requires SortedLex(sorted) && multiset(sorted) == multiset(listing)
    ensures PayloadNames(listing) == sorted
  {
    FilterKeepsAll(listing, IsB64Name);
    SortedLexUnique(PayloadNames(listing), sorted);
  }

  /** A two-element list in ascending order is sorted, and holds what the list in the other order holds. */
  lemma TwoSortedLex(a: string, b: string)
    requires LexLe(a, b)
    ensures SortedLex([a, b])
    ensures multiset([a, b]) == multiset([b, a])
  {
    LexLeReflexive(a);
    LexLeReflexive(b);
  }

  /** When every payload is recognised and processable, the structured pages follow the sorted payload names. */
  lemma AllRecognisedInNameOrder(listing: seq<string>, names: seq<string>, ocr: string -> Response)
    requires names == PayloadNames(listing) && |names| > 0
    requires forall i :: 0 <= i < |names| ==> Processable(ocr, names[i]) && ocr(names[i]).errorMessage == ""
    ensures WritesPages(Extract(listing, ocr), PageNumbers(names))
  {
    ExtractPagesInNameOrder(names, ocr);
    PayloadNamesEmpty(listing);
    assert Extract(listing, ocr) == Written(Artifacts(Join(ExtractPages(names, ocr).value.texts, PageSeparator), ExtractPages(names, ocr).value.structured, ExtractPages(names, ocr).value.timings));
  }

  /** When every name is recognised and processable, the loop's page records follow the names one to one. */
  lemma ExtractPagesInNameOrder(names: seq<string>, ocr: string -> Response)
    requires forall i :: 0 <= i < |names| ==> Processable(ocr, names[i]) && ocr(names[i]).errorMessage == ""
    ensures ExtractPages(names, ocr).Success?
    ensures
      var pages := ExtractPages(names, ocr).value.structured;
      |pages| == |names| && forall i :: 0 <= i < |names| ==> pages[i].pageNumber == PageNumbers(names)[i]
  {
    var p := ExtractPages(names, ocr).value;
    ExtractPagesLayout(names, ocr);
    FilterKeepsAll(names, (n: string) => ocr(n).errorMessage == "");
    assert DescribesAll(p, names, ocr);
    forall i | 0 <= i < |names| ensures p.structured[i].pageNumber == PageNumbers(names)[i] {
      assert DescribesPage(p, i, names[i], ocr);
    }
  }

  /** Two recognised payloads are written in name order whatever their page numbers. */
  lemma TwoPayloadsInNameOrder(first: string, second: string, ocr: string -> Response, p: nat, q: nat)
    requires IsB64Name(first) && IsB64Name(second)
    requires LexLe(second, first)
    requires PageNumberOf(first) == Some(p) && PageNumberOf(second) == Some(q)
    requires ocr(first).errorMessage == "" && AnnotationCodesKnown(ocr(first).annotation)
    requires ocr(second).errorMessage == "" && AnnotationCodesKnown(ocr(second).annotation)
    ensures WritesPages(Extract([first, second], ocr), [q, p])
  {
    TwoPayloadNamesSorted(first, second);
    TwoRecognised(first, second, ocr, p, q);
  }

  lemma TwoRecognised(first: string, second: string, ocr: string -> Response, p: nat, q: nat)
    requires PayloadNames([first, second]) == [second, first]
    requires PageNumberOf(first) == Some(p) && PageNumberOf(second) == Some(q)
    requires ocr(first).errorMessage == "" && AnnotationCodesKnown(ocr(first).annotation)
    requires ocr(second).errorMessage == "" && AnnotationCodesKnown(ocr(second).annotation)
    ensures WritesPages(Extract([first, second], ocr), [q, p])
  {
    TwoNamesRecognised(first, second, ocr, p, q);
    AllRecognisedInNameOrder([first, second], [second, first], ocr);
  }

  lemma TwoNamesRecognised(first: string, second: string, ocr: string -> Response, p: nat, q: nat)
    requires PageNumberOf(first) == Some(p) && PageNumberOf(second) == Some(q)
    requires ocr(first).errorMessage == "" && AnnotationCodesKnown(ocr(first).annotation)
    requires ocr(second).errorMessage == "" && AnnotationCodesKnown(ocr(second).annotation)
    ensures forall i :: 0 <= i < 2 ==> Processable(ocr, [second, first][i]) && ocr([second, first][i]).errorMessage == ""
    ensures PageNumbers([second, first]) == [q, p]
  {
    var names := [second, first];
    forall i | 0 <= i < |names| ensures Processable(ocr, names[i]) && ocr(names[i]).errorMessage == "" {
      if i == 0 { assert names[i] == second; } else { assert names[i] == first; }
    }
  }

  /**
   * Pages come out in name order, not page order: with pages 2 and 10 both recognised, the structured
   * artifact lists page 10 first.
   */
  lemma PageTenIsWrittenBeforePageTwo(ocr: string -> Response)
    requires forall n :: n in [PageFileName(2, B64Suffix), PageFileName(10, B64Suffix)] ==>
      ocr(n).errorMessage == "" && AnnotationCodesKnown(ocr(n).annotation)
    ensures WritesPages(Extract([PageFileName(2, B64Suffix), PageFileName(10, B64Suffix)], ocr), [10, 2])
  {
    var two, ten := PageFileName(2, B64Suffix), PageFileName(10, B64Suffix);
    B64NameOfPageImage(2);
    B64NameOfPageImage(10);
    PageTenSortsBeforePageTwo(B64Suffix);
    PageNumberOfPageFile(2, B64Suffix);
    PageNumberOfPageFile(10, B64Suffix);
    assert two in [two, ten] && ten in [two, ten];
    TwoPayloadsInNameOrder(two, ten, ocr, 2, 10);
  }

  /** A name-sorted list of single-digit page names is in page order. */
  lemma SingleDigitNamesInPageOrder(names: seq<string>, digits: seq<nat>)
    requires SortedLex(names) && |digits| == |names|
    requires forall i :: 0 <= i < |names| ==> digits[i] < 10 && names[i] == PageFileName(digits[i], B64Suffix)
    ensures forall i :: 0 <= i < |names| ==> PageNumberOf(names[i]) == Some(digits[i])
    ensures forall i, j :: 0 <= i < j < |names| ==> digits[i] <= digits[j]
  {
    forall i | 0 <= i < |names| ensures PageNumberOf(names[i]) == Some(digits[i]) {
      PageNumberOfPageFile(digits[i], B64Suffix);
    }
    forall i, j | 0 <= i < j < |names| ensures digits[i] <= digits[j] {
      assert LexLe(names[i], names[j]);
      SingleDigitPageNamesSortNumerically(digits[i], digits[j], B64Suffix);
    }
  }

  /** Where every payload is `output-<k>.b64` with a single digit `k`, name order is page order. */
  lemma SingleDigitPagesInPageOrder(listing: seq<string>, ocr: string -> Response)
    requires Extract(listing, ocr).Written?
    requires forall i :: 0 <= i < |listing| && IsB64Name(listing[i]) ==>
      exists k: nat :: k < 10 && listing[i] == PageFileName(k, B64Suffix)
    ensures
      var pages := Extract(listing, ocr).artifacts.structured;
      forall i, j :: 0 <= i < j < |pages| ==> pages[i].pageNumber <= pages[j].pageNumber
  {
    ExtractWrittenLayout(listing, ocr);
    var a := Extract(listing, ocr).artifacts;
    var kept := Kept(PayloadNames(listing), ocr);
    KeptPagesInPageOrder(listing, kept, a.structured);
  }

  /** Pages numbered after sorted single-digit payload names are in page order. */
  lemma KeptPagesInPageOrder(listing: seq<string>, kept: seq<string>, pages: seq<PageData>)
    requires SortedLex(kept) && |pages| == |kept|
    requires forall i :: 0 <= i < |kept| ==> kept[i] in PayloadNames(listing)
    requires forall i :: 0 <= i < |listing| && IsB64Name(listing[i]) ==>
      exists k: nat :: k < 10 && listing[i] == PageFileName(k, B64Suffix)
    requires forall i :: 0 <= i < |kept| ==> PageNumberOf(kept[i]).Some? && pages[i].pageNumber == PageNumberOf(kept[i]).value
    ensures forall i, j :: 0 <= i < j < |pages| ==> pages[i].pageNumber <= pages[j].pageNumber
  {
    var digits := KeptDigits(listing, kept);
    SingleDigitNamesInPageOrder(kept, digits);
    assert forall i :: 0 <= i < |pages| ==> pages[i].pageNumber == digits[i];
  }

  /** The single digits the kept payload names carry, when every payload name in the listing carries one. */
  lemma KeptDigits(listing: seq<string>, kept: seq<string>) returns (digits: seq<nat>)
    requires forall i :: 0 <= i < |kept| ==> kept[i] in PayloadNames(listing)
    requires forall i :: 0 <= i < |listing| && IsB64Name(listing[i]) ==>
      exists k: nat :: k < 10 && listing[i] == PageFileName(k, B64Suffix)
    ensures |digits| == |kept|
    ensures forall i :: 0 <= i < |kept| ==> digits[i] < 10 && kept[i] == PageFileName(digits[i], B64Suffix)
  {
    forall i | 0 <= i < |kept|
      ensures PageNumberOf(kept[i]).Some? && PageNumberOf(kept[i]).value < 10
      ensures kept[i] == PageFileName(PageNumberOf(kept[i]).value, B64Suffix)
    {
      KeptNameDigit(listing, kept, i);
    }
    digits := PageNumbers(kept);
  }

  /** The single digit kept name `n` carries. */
  lemma KeptNameDigit(listing: seq<string>, kept: seq<string>, n: nat)
    requires n < |kept|
    requires forall i :: 0 <= i < |kept| ==> kept[i] in PayloadNames(listing)
    requires forall i :: 0 <= i < |listing| && IsB64Name(listing[i]) ==>
      exists k: nat :: k < 10 && listing[i] == PageFileName(k, B64Suffix)
    ensures PageNumberOf(kept[n]).Some? && PageNumberOf(kept[n]).value < 10
    ensures kept[n] == PageFileName(PageNumberOf(kept[n]).value, B64Suffix)
  {
    var k := SingleDigitIndex(listing, PayloadNames(listing), kept[n]);
    DigitOfPageFile(kept[n], k);
  }

  /** A single-digit page name parses back to its digit. */
  lemma DigitOfPageFile(name: string, k: nat)
    requires k < 10 && name == PageFileName(k, B64Suffix)
    ensures PageNumberOf(name).Some? && PageNumberOf(name).value < 10
    ensures name == PageFileName(PageNumberOf(name).value, B64Suffix)
  {
    PageNumberOfPageFile(k, B64Suffix);
  }

  /** The single digit a payload name carries. */
  lemma SingleDigitIndex(listing: seq<string>, names: seq<string>, name: string) returns (k: nat)
    requires names == PayloadNames(listing)
    requires name in names
    requires forall i :: 0 <= i < |listing| && IsB64Name(listing[i]) ==>
      exists k: nat :: k < 10 && listing[i] == PageFileName(k, B64Suffix)
    ensures k < 10 && name == PageFileName(k, B64Suffix)
  {
    assert name in multiset(Filter(listing, IsB64Name));
    var f := Filter(listing, IsB64Name);
    var m :| 0 <= m < |f| && f[m] == name;
    assert IsB64Name(name) && name in listing;
    var j :| 0 <= j < |listing| && listing[j] == name;
    k :| k < 10 && listing[j] == PageFileName(k, B64Suffix);
  }

  /** Every page a written extraction holds was a payload file in the listing. */
  lemma WrittenFilesAreListedPayloads(listing: seq<string>, ocr: string -> Response)
    requires Extract(listing, ocr).Written?
    ensures
      var timings := Extract(listing, ocr).artifacts.timings;
      forall i :: 0 <= i < |timings| ==> timings[i].file in listing && IsB64Name(timings[i].file)
  {
    ExtractWrittenLayout(listing, ocr);
    var timings := Extract(listing, ocr).artifacts.timings;
    var names := PayloadNames(listing);
    var kept := Kept(names, ocr);
    forall i | 0 <= i < |timings| ensures timings[i].file in listing && IsB64Name(timings[i].file) {
      var f := timings[i].file;
      assert f == TimingFiles(timings)[i] == kept[i];
      assert f in names;
      assert f in multiset(Filter(listing, IsB64Name));
    }
  }
}

=== FILE: naming.dfy ===
/**
 * File names in the watch directory: the page images the converter writes (`output-<n>.jpg`), the
 * encoded payloads derived from them (`output-<n>.b64`), and the page number read back from a name.
 */
module Naming {
  import opened Base
  import opened Text
  import opened Sorting

  const Prefix: string := "output-"
  const JpgSuffix: string := ".jpg"
  const B64Suffix: string := ".b64"

  /** A converted page image: starts with `output-` and ends with `.jpg`. */
  predicate IsJpgName(f: string) {
    StartsWith(f, Prefix) && EndsWith(f, JpgSuffix)
  }

  /** An encoded page payload: starts with `output-` and ends with `.b64`. */
  predicate IsB64Name(f: string) {
    StartsWith(f, Prefix) && EndsWith(f, B64Suffix)
  }

  /** The name the converter gives page `k` (its `output-%d` pattern) with the given extension. */
  function PageFileName(k: nat, ext: string): string {
    Prefix + ShowNat(k) + ext
  }

  /**
   * The payload name of an image: `jpg_file.replace('.jpg', '.b64')`. Both extensions have four
   * characters, so the name keeps its length, and the `output-` prefix is never rewritten.
   */
  function B64NameOf(jpg: string): (r: string)
    ensures |r| == |jpg|
    ensures StartsWith(jpg, Prefix) ==> StartsWith(r, Prefix)
  {
    if StartsWith(jpg, Prefix) then
      assert Prefix + jpg[|Prefix|..] == jpg;
      assert JpgSuffix[0] !in Prefix;
      ReplaceKeepsPrefix(Prefix, jpg[|Prefix|..], JpgSuffix, B64Suffix);
      Replace(jpg, JpgSuffix, B64Suffix)
    else
      Replace(jpg, JpgSuffix, B64Suffix)
  }

  /**
   * `int(name.split('-')[1].split('.')[0])`: the page number between the first `-` and the next `.`
   * or `-`; `None` where Python raises (no `-`, or a token that is not a decimal number).
   */
  function PageNumberOf(name: string): (r: Option<nat>)
    ensures r.Some? ==> '-' in name
  {
    var fields := Split(name, '-');
    if |fields| < 2 then
      assert Join(fields, "-") == fields[0];
      None
    else
      var token := Split(fields[1], '.')[0];
      assert '-' in name by {
        assert Join(fields, "-") == fields[0] + "-" + Join(fields[1..], "-");
        assert name[|fields[0]|] == '-';
      }
      ParseInt(token)
  }

  // ---------------------------------------------------------------------------
  // Lemmas about the names

  /** Replacing inside `x + target` replaces the final `target` too, when `target` cannot overlap itself. */
  lemma {:induction false} ReplaceBeforeTarget(x: string, target: string, repl: string)
    requires |target| > 0 && target[0] !in target[1..]
    ensures Replace(x + target, target, repl) == Replace(x, target, repl) + repl
    decreases |x|
  {
    var t := x + target;
    if |x| == 0 {
      assert t == target;
      ReplaceAtMatch(t, target, repl);
      assert t[|target|..] == "";
    } else if |x| < |target| {
      // `target` cannot start again inside itself, so no occurrence starts inside `x`
      assert t[|x|] == target[0];
      assert target[|x|] == target[1..][|x| - 1];
      assert t[..|target|][|x|] != target[|x|];
      ReplaceBeforeTarget(x[1..], target, repl);
      ReplaceStepNoMatch(x, target, repl);
    } else if x[..|target|] == target {
      ReplaceBeforeTarget(x[|target|..], target, repl);
      ReplaceStepMatch(x, target, repl);
    } else {
      SplitAppend(x, target, |target|);
      ReplaceBeforeTarget(x[1..], target, repl);
      ReplaceStepNoMatch(x, target, repl);
    }
  }

  /** The inductive step of `ReplaceBeforeTarget` where no occurrence starts at the front. */
  lemma ReplaceStepNoMatch(x: string, target: string, repl: string)
    requires |target| > 0 && |x| > 0
    requires (x + target)[..|target|] != target
    requires |x| < |target| || x[..|target|] != target
    requires Replace(x[1..] + target, target, repl) == Replace(x[1..], target, repl) + repl
    ensures Replace(x + target, target, repl) == Replace(x, target, repl) + repl
  {
    ReplaceCopiesFront(x, target, repl);
    ReplaceAtNoMatch(x, target, repl);
  }

  /** With no occurrence at the front of `x + target`, the scan copies `x[0]` and goes on with the rest. */
  lemma ReplaceCopiesFront(x: string, target: string, repl: string)
    requires |target| > 0 && |x| > 0
    requires (x + target)[..|target|] != target
    ensures Replace(x + target, target, repl) == [x[0]] + Replace(x[1..] + target, target, repl)
  {
    var t := x + target;
    ReplaceAtNoMatch(t, target, repl);
    assert t[1..] == x[1..] + target;
  }

  /** The inductive step of `ReplaceBeforeTarget` where an occurrence starts at the front. */
  lemma ReplaceStepMatch(x: string, target: string, repl: string)
    requires |target| > 0 && |target| <= |x| && x[..|target|] == target
    requires Replace(x[|target|..] + target, target, repl) == Replace(x[|target|..], target, repl) + repl
    ensures Replace(x + target, target, repl) == Replace(x, target, repl) + repl
  {
    var t := x + target;
    SplitAppend(x, target, |target|);
    ReplaceAtMatch(t, target, repl);
    ReplaceAtMatch(x, target, repl);
  }

  lemma SplitAppend(x: string, y: string, n: nat)
    requires n <= |x|
    ensures (x + y)[..n] == x[..n] && (x + y)[n..] == x[n..] + y
  {
  }

  /** Where no occurrence of `target` starts, the scan copies one character. */
  lemma ReplaceAtNoMatch(t: string, target: string, repl: string)
    requires |target| > 0 && |t| > 0
    requires |t| < |target| || t[..|target|] != target
    ensures Replace(t, target, repl) == [t[0]] + Replace(t[1..], target, repl)
  {
    if |t| < |target| {
      assert [t[0]] + t[1..] == t;
    }
  }

  /** Where an occurrence of `target` starts, the scan emits the replacement and skips it. */
  lemma ReplaceAtMatch(t: string, target: string, repl: string)
    requires |target| > 0 && |target| <= |t| && t[..|target|] == target
    ensures Replace(t, target, repl) == repl + Replace(t[|target|..], target, repl)
  {
  }

  /** The payload name of `output-<m>.jpg` is `output-<m'>.b64` where `m'` is `m` with its own `.jpg` occurrences replaced. */
  lemma B64NameOfParts(m: string)
    ensures B64NameOf(Prefix + m + JpgSuffix) == Prefix + Replace(m, JpgSuffix, B64Suffix) + B64Suffix
  {
    assert JpgSuffix[0] !in JpgSuffix[1..];
    assert JpgSuffix[0] !in Prefix;
    assert Prefix + m + JpgSuffix == Prefix + (m + JpgSuffix);
    ReplaceKeepsPrefix(Prefix, m + JpgSuffix, JpgSuffix, B64Suffix);
    ReplaceBeforeTarget(m, JpgSuffix, B64Suffix);
  }

  /** No name is both an image and a payload: the two extensions differ. */
  lemma JpgNameIsNotB64(f: string)
    requires IsJpgName(f)
    ensures !IsB64Name(f)
  {
    assert f[|f| - 3] == JpgSuffix[1];
  }

  /** Every image name maps to a payload name. */
  lemma B64NameOfJpgName(f: string)
    requires IsJpgName(f)
    ensures IsB64Name(B64NameOf(f))
  {
    // the `.` of `.jpg` cannot lie inside `output-`
    assert f[|f| - 4] == '.';
    assert forall i :: 0 <= i < |Prefix| ==> f[i] == Prefix[i] && f[i] != '.';
    assert |f| >= |Prefix| + |JpgSuffix|;
    var m := f[|Prefix|..|f| - |JpgSuffix|];
    assert f == Prefix + m + JpgSuffix;
    B64NameOfParts(m);
    var r := Prefix + Replace(m, JpgSuffix, B64Suffix) + B64Suffix;
    assert r[..|Prefix|] == Prefix;
    assert r[|r| - |B64Suffix|..] == B64Suffix;
  }

  /** The converter's image for page `k` is encoded under the payload name for page `k`. */
  lemma B64NameOfPageImage(k: nat)
    ensures IsJpgName(PageFileName(k, JpgSuffix))
    ensures B64NameOf(PageFileName(k, JpgSuffix)) == PageFileName(k, B64Suffix)
    ensures IsB64Name(PageFileName(k, B64Suffix))
  {
    var d := ShowNat(k);
    B64NameOfParts(d);
    assert JpgSuffix[0] !in d by {
      assert forall i :: 0 <= i < |d| ==> IsDigit(d[i]);
    }
    ReplaceWithoutFirstChar(d, JpgSuffix, B64Suffix);
    var j := PageFileName(k, JpgSuffix);
    var b := PageFileName(k, B64Suffix);
    assert j[..|Prefix|] == Prefix && j[|j| - 4..] == JpgSuffix;
    assert b[..|Prefix|] == Prefix && b[|b| - 4..] == B64Suffix;
  }

  /** The page number read back from the payload name of page `k` is `k`. */
  lemma PageNumberOfPageFile(k: nat, ext: string)
    requires '-' !in ext && |ext| > 0 && ext[0] == '.'
    ensures PageNumberOf(PageFileName(k, ext)) == Some(k)
  {
    var d := ShowNat(k);
    assert forall i :: 0 <= i < |d| ==> IsDigit(d[i]);
    assert '-' !in d + ext;
    assert PageFileName(k, ext) == "output" + ['-'] + (d + ext);
    SplitAtFirst("output", '-', d + ext);
    SplitWithout(d + ext, '-');
    assert '.' !in d;
    assert d + ext == d + ['.'] + ext[1..];
    SplitAtFirst(d, '.', ext[1..]);
    ParseShowNat(k);
  }

  /** With single-digit page numbers the lexicographic order of page names is the numeric order. */
  lemma SingleDigitPageNamesSortNumerically(a: nat, b: nat, ext: string)
    requires a < 10 && b < 10
    ensures LexLe(PageFileName(a, ext), PageFileName(b, ext)) <==> a <= b
  {
    var da := DigitChar(a);
    var db := DigitChar(b);
    assert PageFileName(a, ext) == Prefix + ([da] + ext);
    assert PageFileName(b, ext) == Prefix + ([db] + ext);
    LexLeCommonPrefix(Prefix, [da] + ext, [db] + ext);
    LexLeReflexive(ext);
    assert ([da] + ext)[1..] == ext && ([db] + ext)[1..] == ext;
  }

  /** From page 10 on, lexicographic order is not numeric order: page 10's name sorts before page 2's. */
  lemma PageTenSortsBeforePageTwo(ext: string)
    ensures LexLe(PageFileName(10, ext), PageFileName(2, ext))
    ensures !LexLe(PageFileName(2, ext), PageFileName(10, ext))
  {
    assert ShowNat(10) == ['1', '0'];
    assert ShowNat(2) == ['2'];
    assert PageFileName(10, ext) == Prefix + (['1', '0'] + ext);
    assert PageFileName(2, ext) == Prefix + (['2'] + ext);
    LexLeCommonPrefix(Prefix, ['1', '0'] + ext, ['2'] + ext);
    LexLeCommonPrefix(Prefix, ['2'] + ext, ['1', '0'] + ext);
  }
}

=== FILE: pipeline.dfy ===
/**
 * One run of the watcher on `input.pdf`: wait for the file to settle, classify the converter's result,
 * write one payload per page image, then extract. Every external effect is an input: the size samples the
 * gate sees, how the converter ended, the directory listing it leaves behind, and the OCR service.
 */
module Pipeline {
  import opened Base
  import opened Seqs
  import opened Text
  import opened Naming
  import opened StabilityGate
  import opened Conversion
  import opened Vision
  import opened Extraction
  import opened Structured

  /** How a run ends. Every outcome other than `Completed` writes none of the three extraction artifacts. */
  datatype RunOutcome =
    | FileVanished                 // the gate saw the file disappear
    | AwaitingStability            // the samples given end before the gate decides
    | ConversionTimedOut
    | ConversionFailed(code: int)
    | NoImagesFound
    | NoPayloadsFound
    | ExtractionAborted(error: Error)
    | Completed(artifacts: Artifacts)

  /** No name occurs twice, as in a directory listing. */
  predicate Distinct(s: seq<string>) {
    forall i, j :: 0 <= i < j < |s| ==> s[i] != s[j]
  }

  /**
   * The directory listing after some files are written into it: the old names, then each written name
   * that is not there yet, once.
   */
  function AddNames(listing: seq<string>, added: seq<string>): (r: seq<string>)
    ensures |listing| <= |r| && r[..|listing|] == listing
    ensures forall i :: 0 <= i < |added| ==> added[i] in r
    ensures forall i :: 0 <= i < |r| ==> r[i] in listing || r[i] in added
    ensures Distinct(listing) ==> Distinct(r)
    decreases |added|
  {
    if |added| == 0 then listing
    else
      var rest := added[1..];
      assert forall i :: 0 < i < |added| ==> added[i] == rest[i - 1];
      if added[0] in listing then AddNames(listing, rest)
      else
        var grown := listing + [added[0]];
        DistinctSnoc(listing, added[0]);
        var r := AddNames(grown, rest);
        assert r[..|listing|] == r[..|grown|][..|listing|];
        assert r[|listing|] == grown[|listing|] == added[0];
        r
  }

  /** Appending a new name keeps a listing free of duplicates. */
  lemma DistinctSnoc(s: seq<string>, x: string)
    requires x !in s
    ensures Distinct(s) ==> Distinct(s + [x])
  {
  }

  /** The run after a successful conversion: write the payloads, then extract over the grown listing. */
  function ExtractAfterConversion(listing: seq<string>, images: seq<string>, ocr: string -> Response): (r: RunOutcome)
    requires forall i :: 0 <= i < |images| ==> IsJpgName(images[i])
    ensures r.ExtractionAborted? || r.Completed? || r == NoPayloadsFound
    ensures |images| > 0 ==> r != NoPayloadsFound
  {
    var payloads := B64NamesOf(images);
    var after := AddNames(listing, payloads);
    assert |images| > 0 ==> payloads[0] in after && IsB64Name(payloads[0]);
    match Extract(after, ocr)
    case NoPayloads => NoPayloadsFound
    case Aborted(e) => ExtractionAborted(e)
    case Written(a) => Completed(a)
  }

  /** The run, from the samples the gate sees to the extraction's outcome. */
  function ProcessPdf(trace: seq<Sample>, period: int, run: ConversionRun, listing: seq<string>,
                      ocr: string -> Response): (r: RunOutcome)
    ensures r == FileVanished <==> Gate(trace, period).Vanished?
    ensures r == AwaitingStability <==> Gate(trace, period).StillWaiting?
    ensures r == ConversionTimedOut <==> Gate(trace, period).Stable? && (run == Expired || run == Exited(TimeoutExitCode))
    ensures r.ConversionFailed? <==> Gate(trace, period).Stable? && run.Exited? && run.code != 0 && run.code != TimeoutExitCode
    ensures r.ConversionFailed? ==> r.code == run.code
    ensures r == NoImagesFound <==>
      Gate(trace, period).Stable? && run == Exited(0) && forall i :: 0 <= i < |listing| ==> !IsJpgName(listing[i])
    ensures r.ExtractionAborted? || r.Completed? ==>
      Gate(trace, period).Stable? && run == Exited(0) && exists i :: 0 <= i < |listing| && IsJpgName(listing[i])
    ensures r != NoPayloadsFound
  {
    match Gate(trace, period)
    case Vanished(_) => FileVanished
    case StillWaiting(_) => AwaitingStability
    case Stable(_) =>
      match Classify(run, listing)
      case TimedOut => ConversionTimedOut
      case ToolFailed(code) => ConversionFailed(code)
      case NoImages => NoImagesFound
      case Converted(images) => ExtractAfterConversion(listing, images, ocr)
  }

  /** A completed run is the extraction over the listing with the converted images' payloads added. */
  lemma CompletedIsWritten(trace: seq<Sample>, period: int, run: ConversionRun, listing: seq<string>,
                           ocr: string -> Response)
    requires ProcessPdf(trace, period, run, listing, ocr).Completed?
    ensures Classify(run, listing) == Converted(ImageNames(listing))
    ensures Extract(AddNames(listing, B64NamesOf(ImageNames(listing))), ocr)
         == Written(ProcessPdf(trace, period, run, listing, ocr).artifacts)
  {
    var r := ProcessPdf(trace, period, run, listing, ocr);
    assert Gate(trace, period).Stable? && Classify(run, listing).Converted?;
    var images := Classify(run, listing).images;
    assert r == ExtractAfterConversion(listing, images, ocr);
    CompletedAfterConversion(listing, images, ocr);
  }

  /** A completed run after conversion carries the artifacts the extraction over the grown listing writes. */
  lemma CompletedAfterConversion(listing: seq<string>, images: seq<string>, ocr: string -> Response)
    requires forall i :: 0 <= i < |images| ==> IsJpgName(images[i])
    requires ExtractAfterConversion(listing, images, ocr).Completed?
    ensures Extract(AddNames(listing, B64NamesOf(images)), ocr) == Written(ExtractAfterConversion(listing, images, ocr).artifacts)
  {
  }

  /**
   * In a directory that held no payload files beforehand, every page the run writes comes from one of
   * the converted images, through the `.jpg` to `.b64` renaming.
   */
  lemma CompletedPagesComeFromImages(trace: seq<Sample>, period: int, run: ConversionRun, listing: seq<string>,
                                     ocr: string -> Response)
    requires forall i :: 0 <= i < |listing| ==> !IsB64Name(listing[i])
    requires ProcessPdf(trace, period, run, listing, ocr).Completed?
    ensures
      var a := ProcessPdf(trace, period, run, listing, ocr).artifacts;
      var images := ImageNames(listing);
      forall i :: 0 <= i < |a.timings| ==> exists j :: 0 <= j < |images| && a.timings[i].file == B64NameOf(images[j])
  {
    CompletedIsWritten(trace, period, run, listing, ocr);
    WrittenPagesComeFromImages(listing, ImageNames(listing), ocr);
  }

  /** Over a listing without payload files, the extraction after writing the images' payloads only writes those. */
  lemma WrittenPagesComeFromImages(listing: seq<string>, images: seq<string>, ocr: string -> Response)
    requires forall i :: 0 <= i < |images| ==> IsJpgName(images[i])
    requires forall i :: 0 <= i < |listing| ==> !IsB64Name(listing[i])
    requires Extract(AddNames(listing, B64NamesOf(images)), ocr).Written?
    ensures
      var a := Extract(AddNames(listing, B64NamesOf(images)), ocr).artifacts;
      forall i :: 0 <= i < |a.timings| ==> exists j :: 0 <= j < |images| && a.timings[i].file == B64NameOf(images[j])
  {
    var after := AddNames(listing, B64NamesOf(images));
    var a := Extract(after, ocr).artifacts;
    WrittenFilesAreListedPayloads(after, ocr);
    forall i | 0 <= i < |a.timings| ensures exists j :: 0 <= j < |images| && a.timings[i].file == B64NameOf(images[j]) {
      var f := a.timings[i].file;
      assert f in after && f !in listing;
      var j := AddedNameIsPayload(listing, images, f);
    }
  }

  /** A name the payload writing added to the listing is the payload name of one of the images. */
  lemma AddedNameIsPayload(listing: seq<string>, images: seq<string>, f: string) returns (j: nat)
    requires forall i :: 0 <= i < |images| ==> IsJpgName(images[i])
    requires f in AddNames(listing, B64NamesOf(images)) && f !in listing
    ensures j < |images| && f == B64NameOf(images[j])
  {
    var payloads := B64NamesOf(images);
    j :| 0 <= j < |payloads| && payloads[j] == f;
  }

  /**
   * Conversely, every converted image whose payload the OCR service recognises has its page written.
   */
  lemma RecognisedImagesAreWritten(trace: seq<Sample>, period: int, run: ConversionRun, listing: seq<string>,
                                   ocr: string -> Response, image: string)
    requires ProcessPdf(trace, period, run, listing, ocr).Completed?
    requires image in listing && IsJpgName(image) && ocr(B64NameOf(image)).errorMessage == ""
    ensures
      var a := ProcessPdf(trace, period, run, listing, ocr).artifacts;
      exists i :: 0 <= i < |a.timings| && a.timings[i].file == B64NameOf(image)
  {
    var images := ImageNames(listing);
    var payloads := B64NamesOf(images);
    var after := AddNames(listing, payloads);
    CompletedIsWritten(trace, period, run, listing, ocr);
    var k :| 0 <= k < |listing| && listing[k] == image;
    var j :| 0 <= j < |images| && images[j] == image;
    assert payloads[j] == B64NameOf(image) && IsB64Name(payloads[j]);
    RecognisedPayloadIsWritten(after, ocr, B64NameOf(image));
  }

  // ---------------------------------------------------------------------------
  // The success path, end to end

  /** The artifacts hold exactly the one recognised page stored under `name`, numbered `page`. */
  predicate WritesOnePage(a: Artifacts, name: string, page: nat, ocr: string -> Response) {
    && AnnotationCodesKnown(ocr(name).annotation)
    && a.text == ocr(name).annotation.text
    && a.structured == [BuildPage(page, ocr(name))]
    && |a.timings| == 1
    && a.timings[0].page == page
    && a.timings[0].file == name
  }

  /**
   * The success path is reachable: once the gate has answered Stable, a converter that exits with 0 and
   * leaves the single image `output-<k>.jpg` in an otherwise empty directory, with its payload
   * `output-<k>.b64` recognised, completes the run with exactly that page: its text, its page tree
   * numbered k and its timing entry.
   */
  lemma OnePageRunCompletes(trace: seq<Sample>, period: int, ocr: string -> Response, k: nat) returns (a: Artifacts)
    requires Gate(trace, period).Stable?
    requires ocr(PageFileName(k, B64Suffix)).errorMessage == ""
    requires AnnotationCodesKnown(ocr(PageFileName(k, B64Suffix)).annotation)
    ensures ProcessPdf(trace, period, Exited(0), [PageFileName(k, JpgSuffix)], ocr) == Completed(a)
    ensures WritesOnePage(a, PageFileName(k, B64Suffix), k, ocr)
  {
    B64NameOfPageImage(k);
    PageNumberOfPageFile(k, B64Suffix);
    a := OneImageRunCompletes(trace, period, PageFileName(k, JpgSuffix), ocr);
  }

  /** A directory holding one image whose payload is recognised completes the run with that one page. */
  lemma OneImageRunCompletes(trace: seq<Sample>, period: int, image: string, ocr: string -> Response)
    returns (a: Artifacts)
    requires Gate(trace, period).Stable?
    requires IsJpgName(image) && PageNumberOf(B64NameOf(image)).Some?
    requires ocr(B64NameOf(image)).errorMessage == "" && AnnotationCodesKnown(ocr(B64NameOf(image)).annotation)
    ensures ProcessPdf(trace, period, Exited(0), [image], ocr) == Completed(a)
    ensures WritesOnePage(a, B64NameOf(image), PageNumberOf(B64NameOf(image)).value, ocr)
  {
    OneImageListings(image);
    a := OnePayloadWritten(image, ocr);
    OneImageRunExtracts(trace, period, image, ocr, a);
  }

  /** A one-image run past a stable gate ends with whatever the extraction over the image and its payload writes. */
  lemma OneImageRunExtracts(trace: seq<Sample>, period: int, image: string, ocr: string -> Response, a: Artifacts)
    requires Gate(trace, period).Stable? && IsJpgName(image)
    requires Extract([image, B64NameOf(image)], ocr) == Written(a)
    ensures ProcessPdf(trace, period, Exited(0), [image], ocr) == Completed(a)
  {
    OneImageListings(image);
    OneImageConverted(image);
    RunCompletesWith(trace, period, Exited(0), [image], ocr, [image, B64NameOf(image)]);
  }

  /** A converter that exits with 0 and leaves one page image has converted the document. */
  lemma OneImageConverted(image: string)
    requires IsJpgName(image)
    ensures Classify(Exited(0), [image]).Converted?
  {
    assert IsJpgName([image][0]);
  }

  /**
   * Once the gate is stable and the converter has produced images, a run whose grown listing `after`
   * extracts successfully completes with the artifacts of that extraction.
   */
  lemma RunCompletesWith(trace: seq<Sample>, period: int, run: ConversionRun, listing: seq<string>,
                         ocr: string -> Response, after: seq<string>)
    requires Gate(trace, period).Stable? && Classify(run, listing).Converted?
    requires AddNames(listing, B64NamesOf(ImageNames(listing))) == after
    requires Extract(after, ocr).Written?
    ensures ProcessPdf(trace, period, run, listing, ocr) == Completed(Extract(after, ocr).artifacts)
  {
  }

  /** The listings a one-image directory goes through: its image list, its payloads, the grown listing. */
  lemma OneImageListings(image: string)
    requires IsJpgName(image)
    ensures
      var b := B64NameOf(image);
      && ImageNames([image]) == [image]
      && B64NamesOf([image]) == [b]
      && AddNames([image], [b]) == [image, b]
      && PayloadNames([image, b]) == [b]
  {
    var b := B64NameOf(image);
    B64NameOfJpgName(image);
    JpgNameIsNotB64(image);
    FilterOnlyLast([image], IsJpgName);
    SingletonOfMultiset(ImageNames([image]), image);
    assert B64NamesOf([image])[0] == b;
    assert AddNames([image], [b]) == AddNames([image, b], []) by {
      assert b !in [image];
      assert [image] + [b] == [image, b];
    }
    OnePayloadName(image, b);
  }

  /** Of an image name and its payload name, only the payload is picked up for extraction. */
  lemma OnePayloadName(image: string, b: string)
    requires !IsB64Name(image) && IsB64Name(b)
    ensures PayloadNames([image, b]) == [b]
  {
    var listing := [image, b];
    assert forall i :: 0 <= i < |listing| - 1 ==> !IsB64Name(listing[i]);
    FilterOnlyLast(listing, IsB64Name);
    SingletonOfMultiset(PayloadNames(listing), b);
  }

  /** The extraction over one image and its recognised payload writes that payload's one page. */
  lemma OnePayloadWritten(image: string, ocr: string -> Response) returns (a: Artifacts)
    requires IsJpgName(image) && PageNumberOf(B64NameOf(image)).Some?
    requires ocr(B64NameOf(image)).errorMessage == "" && AnnotationCodesKnown(ocr(B64NameOf(image)).annotation)
    requires PayloadNames([image, B64NameOf(image)]) == [B64NameOf(image)]
    ensures Extract([image, B64NameOf(image)], ocr) == Written(a)
    ensures WritesOnePage(a, B64NameOf(image), PageNumberOf(B64NameOf(image)).value, ocr)
  {
    var b := B64NameOf(image);
    var p := OnePageLoop(b, ocr);
    a := Artifacts(Join(p.texts, PageSeparator), p.structured, p.timings);
  }

  /** The loop over one recognised, processable name records exactly that page. */
  lemma OnePageLoop(name: string, ocr: string -> Response) returns (p: Pages)
    requires PageNumberOf(name).Some?
    requires ocr(name).errorMessage == "" && AnnotationCodesKnown(ocr(name).annotation)
    ensures ExtractPages([name], ocr) == Success(p)
    ensures p.texts == [ocr(name).annotation.text]
    ensures p.structured == [BuildPage(PageNumberOf(name).value, ocr(name))]
    ensures |p.timings| == 1 && p.timings[0].page == PageNumberOf(name).value && p.timings[0].file == name
  {
    assert [name][1..] == [];
    p := PrependPage(name, PageNumberOf(name).value, ocr(name), Pages([], [], []));
  }
}

=== FILE: seqs.dfy ===
/** Order-preserving selection from a sequence: Python's `[x for x in s if keep(x)]`. */
module Seqs {

  function Filter<T>(s: seq<T>, keep: T -> bool): (r: seq<T>)
    ensures |r| <= |s|
    ensures forall i :: 0 <= i < |s| && keep(s[i]) ==> s[i] in r
    ensures forall i :: 0 <= i < |r| ==> r[i] in s
    ensures forall i :: 0 <= i < |r| ==> keep(r[i])
    ensures multiset(r) <= multiset(s)
  {
    if |s| == 0 then []
    else
      var rest := Filter(s[1..], keep);
      FilterStep(s, keep, rest);
      if keep(s[0]) then [s[0]] + rest else rest
  }

  /** One step of `Filter`: what holds of the tail's selection carries over to the whole list's. */
  lemma FilterStep<T>(s: seq<T>, keep: T -> bool, rest: seq<T>)
    requires |s| > 0 && |rest| <= |s| - 1
    requires forall i :: 0 < i < |s| && keep(s[i]) ==> s[i] in rest
    requires forall i :: 0 <= i < |rest| ==> rest[i] in s[1..] && keep(rest[i])
    requires multiset(rest) <= multiset(s[1..])
    ensures var r := if keep(s[0]) then [s[0]] + rest else rest;
      && |r| <= |s|
      && (forall i :: 0 <= i < |s| && keep(s[i]) ==> s[i] in r)
      && (forall i :: 0 <= i < |r| ==> r[i] in s && keep(r[i]))
      && multiset(r) <= multiset(s)
  {
    assert s == [s[0]] + s[1..];
  }

  /** Filtering with a predicate every element satisfies changes nothing. */
  lemma {:induction false} FilterKeepsAll<T>(s: seq<T>, keep: T -> bool)
    requires forall i :: 0 <= i < |s| ==> keep(s[i])
    ensures Filter(s, keep) == s
    decreases |s|
  {
    if |s| > 0 {
      FilterKeepsAll(s[1..], keep);
    }
  }

  /** When `keep` accepts only the last element, the selection is that element alone. */
  lemma {:induction false} FilterOnlyLast<T>(s: seq<T>, keep: T -> bool)
    requires |s| > 0 && keep(s[|s| - 1])
    requires forall i :: 0 <= i < |s| - 1 ==> !keep(s[i])
    ensures Filter(s, keep) == [s[|s| - 1]]
    decreases |s|
  {
    if |s| == 1 {
      assert Filter(s[1..], keep) == [];
    } else {
      assert s[1..][|s[1..]| - 1] == s[|s| - 1];
      FilterOnlyLast(s[1..], keep);
    }
  }

  /** A list holding exactly the elements of a one-element list is that list. */
  lemma SingletonOfMultiset<T>(r: seq<T>, x: T)
    requires multiset(r) == multiset([x])
    ensures r == [x]
  {
    assert |r| == |multiset(r)| == 1;
    assert r[0] in multiset(r);
  }
}

=== FILE: sorting.dfy ===
/** Python's ordering of `str` values (code point by code point, a prefix first) and `sorted()` on lists of them. */
module Sorting {
  import Seqs

  /** `a <= b` on Python strings. */
  predicate LexLe(a: string, b: string)
    decreases |a|
  {
    |a| == 0 || (|b| > 0 && (a[0] < b[0] || (a[0] == b[0] && LexLe(a[1..], b[1..]))))
  }

  /**
   * Python's comparison spelled out at position `k`: the two strings agree before `k`, and there `a` has
   * ended or holds the smaller code point.
   */
  predicate LexLeAt(a: string, b: string, k: nat) {
    && k <= |a| && k <= |b| && a[..k] == b[..k]
    && (k == |a| || (k < |b| && a[k] < b[k]))
  }

  /** `LexLe` is Python's order: `a` is a prefix of `b`, or is smaller where the two first differ. */
  lemma {:induction false} LexLeAtFirstDifference(a: string, b: string)
    ensures LexLe(a, b) <==> exists k: nat :: LexLeAt(a, b, k)
    decreases |a|
  {
    if |a| == 0 {
      assert LexLeAt(a, b, 0);
    } else if |b| == 0 {
      assert forall k: nat :: !LexLeAt(a, b, k);
    } else if a[0] < b[0] {
      assert LexLeAt(a, b, 0);
    } else if a[0] != b[0] {
      forall k: nat ensures !LexLeAt(a, b, k) {
        if 0 < k <= |a| && k <= |b| {
          assert a[..k][0] == a[0] && b[..k][0] == b[0];
        }
      }
    } else {
      LexLeAtFirstDifference(a[1..], b[1..]);
      assert !LexLeAt(a, b, 0);
      forall k: nat ensures LexLeAt(a, b, k + 1) <==> LexLeAt(a[1..], b[1..], k) {
        LexLeAtShift(a, b, k);
      }
      if LexLe(a, b) {
        var k: nat :| LexLeAt(a[1..], b[1..], k);
        assert LexLeAt(a, b, k + 1);
      } else {
        forall k: nat ensures !LexLeAt(a, b, k) {
          if k > 0 {
            assert !LexLeAt(a[1..], b[1..], k - 1);
          }
        }
      }
    }
  }

  /** Past an equal first character, comparing at `k + 1` is comparing the tails at `k`. */
  lemma LexLeAtShift(a: string, b: string, k: nat)
    requires |a| > 0 && |b| > 0 && a[0] == b[0]
    ensures LexLeAt(a, b, k + 1) <==> LexLeAt(a[1..], b[1..], k)
  {
    if k + 1 <= |a| && k + 1 <= |b| {
      assert a[..k + 1] == [a[0]] + a[1..][..k];
      assert b[..k + 1] == [b[0]] + b[1..][..k];
    }
  }

  lemma {:induction false} LexLeReflexive(a: string)
    ensures LexLe(a, a)
    decreases |a|
  {
    if |a| > 0 {
      LexLeReflexive(a[1..]);
    }
  }

  /** Any two strings are comparable. */
  lemma {:induction false} LexLeTotal(a: string, b: string)
    ensures LexLe(a, b) || LexLe(b, a)
    decreases |a|
  {
    if |a| > 0 && |b| > 0 && a[0] == b[0] {
      LexLeTotal(a[1..], b[1..]);
    }
  }

  lemma {:induction false} LexLeTransitive(a: string, b: string, c: string)
    requires LexLe(a, b) && LexLe(b, c)
    ensures LexLe(a, c)
    decreases |a|
  {
    if |a| > 0 && a[0] == b[0] && b[0] == c[0] {
      LexLeTransitive(a[1..], b[1..], c[1..]);
    }
  }

  lemma {:induction false} LexLeAntisymmetric(a: string, b: string)
    requires LexLe(a, b) && LexLe(b, a)
    ensures a == b
    decreases |a|
  {
    if |a| > 0 {
      LexLeAntisymmetric(a[1..], b[1..]);
      assert a == [a[0]] + a[1..] && b == [b[0]] + b[1..];
    }
  }

  /** Comparing two strings with a common prefix is comparing what follows it. */
  lemma {:induction false} LexLeCommonPrefix(p: string, a: string, b: string)
    ensures LexLe(p + a, p + b) == LexLe(a, b)
    decreases |p|
  {
    if |p| > 0 {
      assert (p + a)[1..] == p[1..] + a;
      assert (p + b)[1..] == p[1..] + b;
      LexLeCommonPrefix(p[1..], a, b);
    } else {
      assert p + a == a && p + b == b;
    }
  }

  predicate SortedLex(s: seq<string>) {
    forall i, j :: 0 <= i < j < |s| ==> LexLe(s[i], s[j])
  }

  /** Inserting into a sorted list at the first place where the next element is not smaller. */
  function InsertLex(x: string, s: seq<string>): (r: seq<string>)
    requires SortedLex(s)
    ensures SortedLex(r)
    ensures multiset(r) == multiset(s) + multiset{x}
    decreases |s|
  {
    if |s| == 0 then [x]
    else if LexLe(x, s[0]) then
      LeastOfSorted(x, s);
      SortedPrepend(x, s);
      [x] + s
    else
      var rest := InsertLex(x, s[1..]);
      assert s == [s[0]] + s[1..];
      HeadLeastAfterInsert(x, s, rest);
      SortedPrepend(s[0], rest);
      [s[0]] + rest
  }

  /** A string no greater than the head of a sorted list is no greater than any of its elements. */
  lemma LeastOfSorted(x: string, s: seq<string>)
    requires SortedLex(s) && |s| > 0 && LexLe(x, s[0])
    ensures forall j :: 0 <= j < |s| ==> LexLe(x, s[j])
  {
    forall j | 0 < j < |s| ensures LexLe(x, s[j]) {
      LexLeTransitive(x, s[0], s[j]);
    }
  }

  /** Putting a string no greater than every element in front of a sorted list keeps it sorted. */
  lemma SortedPrepend(x: string, s: seq<string>)
    requires SortedLex(s)
    requires forall j :: 0 <= j < |s| ==> LexLe(x, s[j])
    ensures SortedLex([x] + s)
  {
    forall i, j | 0 <= i < j < |s| + 1 ensures LexLe(([x] + s)[i], ([x] + s)[j]) {
      assert ([x] + s)[j] == s[j - 1];
      if i > 0 {
        assert ([x] + s)[i] == s[i - 1];
      }
    }
  }

  /** The head of a sorted list stays least after a greater string is inserted into its tail. */
  lemma HeadLeastAfterInsert(x: string, s: seq<string>, rest: seq<string>)
    requires SortedLex(s) && |s| > 0 && !LexLe(x, s[0])
    requires multiset(rest) == multiset(s[1..]) + multiset{x}
    ensures forall j :: 0 <= j < |rest| ==> LexLe(s[0], rest[j])
  {
    LexLeTotal(x, s[0]);
    forall j | 0 <= j < |rest| ensures LexLe(s[0], rest[j]) {
      assert rest[j] in multiset(rest);
      if rest[j] != x {
        assert rest[j] in multiset(s[1..]);
        var k :| 0 <= k < |s[1..]| && s[1..][k] == rest[j];
        assert s[k + 1] == rest[j];
      }
    }
  }

  /** `sorted(s)`: the same strings in ascending order. */
  function SortLex(s: seq<string>): (r: seq<string>)
    ensures SortedLex(r)
    ensures multiset(r) == multiset(s)
    ensures |r| == |s|
    decreases |s|
  {
    if |s| == 0 then []
    else
      assert s == [s[0]] + s[1..];
      InsertLex(s[0], SortLex(s[1..]))
  }

  /** There is only one ascending arrangement of a collection of strings, so `SortLex` is `sorted()`. */
  lemma {:induction false} SortedLexUnique(a: seq<string>, b: seq<string>)
    requires SortedLex(a) && SortedLex(b) && multiset(a) == multiset(b)
    ensures a == b
    decreases |a|
  {
    assert |a| == |multiset(a)| == |b|;
    if |a| > 0 {
      SortedHeadsEqual(a, b);
      SortedTail(a);
      SortedTail(b);
      assert a == [a[0]] + a[1..] && b == [b[0]] + b[1..];
      assert multiset(a[1..]) == multiset(a) - multiset{a[0]};
      assert multiset(b[1..]) == multiset(b) - multiset{b[0]};
      SortedLexUnique(a[1..], b[1..]);
    }
  }

  /** Two ascending arrangements of the same non-empty collection start with the same least element. */
  lemma SortedHeadsEqual(a: seq<string>, b: seq<string>)
    requires SortedLex(a) && SortedLex(b) && multiset(a) == multiset(b) && |a| > 0 && |b| > 0
    ensures a[0] == b[0]
  {
    assert a[0] in multiset(b) && b[0] in multiset(a);
    var i :| 0 <= i < |b| && b[i] == a[0];
    var j :| 0 <= j < |a| && a[j] == b[0];
    LexLeReflexive(a[0]);
    assert LexLe(b[0], b[i]) by {
      if i == 0 { LexLeReflexive(b[0]); }
    }
    assert LexLe(a[0], a[j]);
    LexLeAntisymmetric(a[0], b[0]);
  }

  /** Keeping some elements of a sorted list keeps it sorted. */
  lemma {:induction false} FilterSortedLex(s: seq<string>, keep: string -> bool)
    requires SortedLex(s)
    ensures SortedLex(Seqs.Filter(s, keep))
    decreases |s|
  {
    if |s| > 0 {
      SortedTail(s);
      FilterSortedLex(s[1..], keep);
      if keep(s[0]) {
        HeadBelowFiltered(s, keep);
        SortedCons(s[0], Seqs.Filter(s[1..], keep));
      }
    }
  }

  lemma SortedTail(s: seq<string>)
    requires SortedLex(s) && |s| > 0
    ensures SortedLex(s[1..])
  {
    var tail := s[1..];
    forall i, j | 0 <= i < j < |tail| ensures LexLe(tail[i], tail[j]) {
      assert tail[i] == s[i + 1] && tail[j] == s[j + 1];
    }
  }

  lemma SortedCons(h: string, rest: seq<string>)
    requires SortedLex(rest)
    requires forall j :: 0 <= j < |rest| ==> LexLe(h, rest[j])
    ensures SortedLex([h] + rest)
  {
    var r := [h] + rest;
    forall i, j | 0 <= i < j < |r| ensures LexLe(r[i], r[j]) {
      assert r[j] == rest[j - 1];
      if i > 0 {
        assert r[i] == rest[i - 1];
      }
    }
  }

  /** The head of a sorted list is below every kept element of its tail. */
  lemma HeadBelowFiltered(s: seq<string>, keep: string -> bool)
    requires SortedLex(s) && |s| > 0
    ensures forall j :: 0 <= j < |Seqs.Filter(s[1..], keep)| ==> LexLe(s[0], Seqs.Filter(s[1..], keep)[j])
  {
    var tail := s[1..];
    var rest := Seqs.Filter(tail, keep);
    forall j | 0 <= j < |rest| ensures LexLe(s[0], rest[j]) {
      assert rest[j] in tail;
      var k :| 0 <= k < |tail| && tail[k] == rest[j];
      assert s[k + 1] == rest[j];
    }
  }
}

=== FILE: stability.dfy ===
/**
 * The file-stability gate: before a freshly created document is converted, its size is polled until it
 * has stayed the same for a quiet period. The unbounded polling loop is modelled as a left fold over a
 * finite trace of poll samples; a trace that runs out before the gate answers leaves it still waiting.
 */
module StabilityGate {
  import opened Base

  /** One poll: the size query either failed because the file is gone, or returned a size at a time. */
  datatype Sample = Missing | Present(size: nat, time: int)

  /** The loop's locals: the last non-zero size seen (-1 before any) and when that size was first seen. */
  datatype GateState = GateState(lastSize: int, stableStart: Option<int>)

  const Initial: GateState := GateState(-1, None)

  /** What one poll does: keep polling with a new state, or return the gate's answer. */
  datatype Step = Continue(next: GateState) | Return(stable: bool)

  /** The gate's answer on a trace: stable at a sample, gone at a sample, or no answer yet. */
  datatype Verdict = Stable(at: nat) | Vanished(at: nat) | StillWaiting(state: GateState)

  /** The sample repeats the remembered size and the quiet period has elapsed since that size appeared. */
  predicate QuietEnough(g: GateState, x: Sample, period: int) {
    && x.Present?
    && x.size == g.lastSize
    && g.stableStart.Some?
    && x.time - g.stableStart.value >= period
  }

  /** One iteration of the polling loop. */
  function StepGate(g: GateState, x: Sample, period: int): (r: Step)
    ensures r == Return(false) <==> x.Missing?
    ensures r == Return(true) <==> x.Present? && x.size > 0 && QuietEnough(g, x, period)
    ensures x.Present? && x.size == 0 ==> r == Continue(g)
    ensures x.Present? && x.size > 0 && x.size != g.lastSize ==> r == Continue(GateState(x.size, Some(x.time)))
    ensures r.Continue? && r.next != g ==> x.Present? && x.size != g.lastSize && r.next == GateState(x.size, Some(x.time))
  {
    match x
    case Missing => Return(false)
    case Present(size, time) =>
      if size == 0 then Continue(g)
      else if size != g.lastSize then Continue(GateState(size, Some(time)))
      else if g.stableStart.Some? && time - g.stableStart.value >= period then Return(true)
      else Continue(g)
  }

  /** The gate run over a finite trace of samples: a decision, once made, is final. */
  function Gate(trace: seq<Sample>, period: int): (v: Verdict)
    ensures v.Stable? ==> v.at < |trace| && trace[v.at].Present? && trace[v.at].size > 0
    ensures v.Vanished? ==> v.at < |trace| && trace[v.at].Missing?
    ensures v.StillWaiting? ==> forall i :: 0 <= i < |trace| ==> trace[i].Present?
    decreases |trace|
  {
    if |trace| == 0 then StillWaiting(Initial)
    else
      var n := |trace| - 1;
      var prev := Gate(trace[..n], period);
      if !prev.StillWaiting? then prev
      else match StepGate(prev.state, trace[n], period)
        case Return(stable) => if stable then Stable(n) else Vanished(n)
        case Continue(g) =>
          assert forall i :: 0 <= i < n ==> trace[..n][i] == trace[i];
          StillWaiting(g)
  }

  /**
   * The polling loop itself, with the source's locals and branches; it answers exactly as the fold does.
   */
  method IsFileStable(trace: seq<Sample>, period: int) returns (v: Verdict)
    ensures v == Gate(trace, period)
    ensures v.Stable? ==> var g := Gate(trace[..v.at], period);
                            g.StillWaiting? && QuietEnough(g.state, trace[v.at], period)
  {
    var lastSize := -1;
    var stableStart: Option<int> := None;
    var i := 0;
    while i < |trace|
      invariant 0 <= i <= |trace|
      invariant Gate(trace[..i], period) == StillWaiting(GateState(lastSize, stableStart))
    {
      assert trace[..i + 1][..i] == trace[..i];
      match trace[i]
      case Missing =>
        v := Vanished(i);
        GateDecisionIsFinal(trace, period, i + 1);
        return;
      case Present(currentSize, currentTime) =>
        if currentSize == 0 {
          // an empty file is not started yet: poll again with nothing changed
        } else if currentSize != lastSize {
          lastSize := currentSize;
          stableStart := Some(currentTime);
        } else if stableStart.Some? && currentTime - stableStart.value >= period {
          v := Stable(i);
          GateDecisionIsFinal(trace, period, i + 1);
          return;
        }
      i := i + 1;
    }
    assert trace[..i] == trace;
    v := StillWaiting(GateState(lastSize, stableStart));
  }

  /** Once the gate has answered on a prefix, later samples are never looked at. */
  lemma {:induction false} GateDecisionIsFinal(trace: seq<Sample>, period: int, k: nat)
    requires k <= |trace|
    requires !Gate(trace[..k], period).StillWaiting?
    ensures Gate(trace, period) == Gate(trace[..k], period)
    decreases |trace| - k
  {
    if k < |trace| {
      var n := |trace| - 1;
      assert trace[..n][..k] == trace[..k];
      GateDecisionIsFinal(trace[..n], period, k);
    } else {
      assert trace[..k] == trace;
    }
  }

  /** A decided verdict is already decided on the prefix that ends at the deciding sample. */
  lemma {:induction false} GateDecidedOnPrefix(trace: seq<Sample>, period: int)
    requires !Gate(trace, period).StillWaiting?
    ensures Gate(trace[..Gate(trace, period).at + 1], period) == Gate(trace, period)
    decreases |trace|
  {
    var v := Gate(trace, period);
    var n := |trace| - 1;
    var prev := Gate(trace[..n], period);
    if !prev.StillWaiting? {
      GateDecidedOnPrefix(trace[..n], period);
      assert trace[..n][..prev.at + 1] == trace[..prev.at + 1];
    } else {
      assert trace[..n + 1] == trace;
    }
  }

  /** Two traces that agree up to the sample where one of them is decided are decided the same way. */
  lemma GateIgnoresLaterSamples(trace: seq<Sample>, other: seq<Sample>, period: int)
    requires !Gate(trace, period).StillWaiting?
    requires Gate(trace, period).at < |other|
    requires other[..Gate(trace, period).at + 1] == trace[..Gate(trace, period).at + 1]
    ensures Gate(other, period) == Gate(trace, period)
  {
    var v := Gate(trace, period);
    var k := v.at + 1;
    GateDecidedOnPrefix(trace, period);
    assert Gate(other[..k], period) == v;
    GateDecisionIsFinal(other, period, k);
  }

  /** A missing file ends the gate with `false` at that very sample unless it had already answered. */
  lemma GateVanishesAtMissing(trace: seq<Sample>, period: int, k: nat)
    requires k < |trace| && trace[k].Missing?
    requires Gate(trace[..k], period).StillWaiting?
    ensures Gate(trace, period) == Vanished(k)
  {
    assert trace[..k + 1][..k] == trace[..k];
    GateDecisionIsFinal(trace, period, k + 1);
  }

  /** If the file is reported missing at sample `k`, the gate never declares it stable at or after `k`. */
  lemma MissingBeforeStableMeansVanished(trace: seq<Sample>, period: int, k: nat)
    requires k < |trace| && trace[k].Missing?
    ensures Gate(trace, period).Vanished? || Gate(trace, period).Stable?
    ensures Gate(trace, period).at <= k
    ensures Gate(trace, period).Stable? ==> Gate(trace, period).at < k
  {
    var prev := Gate(trace[..k], period);
    if prev.StillWaiting? {
      GateVanishesAtMissing(trace, period, k);
    } else {
      GateDecisionIsFinal(trace, period, k);
    }
  }

  /** A file that only ever reports size zero is never declared stable, however long it is polled. */
  lemma {:induction false} ZeroSizedFileNeverStable(trace: seq<Sample>, period: int)
    requires forall i :: 0 <= i < |trace| ==> trace[i].Present? && trace[i].size == 0
    ensures Gate(trace, period) == StillWaiting(Initial)
    decreases |trace|
  {
    if |trace| > 0 {
      var n := |trace| - 1;
      ZeroSizedFileNeverStable(trace[..n], period);
    }
  }

  /** The gate answers `true` only at a sample that repeats the remembered size after the quiet period. */
  lemma StableOnlyWhenQuiet(trace: seq<Sample>, period: int)
    requires Gate(trace, period).Stable?
    ensures Gate(trace[..Gate(trace, period).at], period).StillWaiting?
    ensures QuietEnough(Gate(trace[..Gate(trace, period).at], period).state, trace[Gate(trace, period).at], period)
  {
    var j := Gate(trace, period).at;
    GateDecidedOnPrefix(trace, period);
    assert trace[..j + 1][..j] == trace[..j];
  }

  /** The first non-zero sample only records its size and time; it can never make the gate answer. */
  lemma FirstNonzeroSampleNeverStable(trace: seq<Sample>, period: int, k: nat)
    requires k < |trace| && trace[k].Present? && trace[k].size > 0
    requires forall i :: 0 <= i < k ==> trace[i].Present? && trace[i].size == 0
    ensures Gate(trace[..k + 1], period) == StillWaiting(GateState(trace[k].size, Some(trace[k].time)))
  {
    ZeroSizedFileNeverStable(trace[..k], period);
    assert trace[..k + 1][..k] == trace[..k];
  }

  /** From sample `a` to the end, every sample is present and either empty or of size `n`, and sample `a` has size `n`. */
  ghost predicate SizeHeldSince(trace: seq<Sample>, a: nat, n: int) {
    && a < |trace|
    && trace[a].Present? && trace[a].size == n
    && forall m :: a <= m < |trace| ==> trace[m].Present? && (trace[m].size == 0 || trace[m].size == n)
  }

  /**
   * While the gate waits, either nothing but empty samples has been seen and the state is the initial one,
   * or it remembers a positive size that has held (ignoring empty samples) since the sample whose time it keeps.
   */
  lemma {:induction false} WaitingState(trace: seq<Sample>, period: int)
    requires Gate(trace, period).StillWaiting?
    ensures var g := Gate(trace, period).state;
      || (g == Initial && forall i :: 0 <= i < |trace| ==> trace[i].size == 0)
      || (&& g.lastSize > 0 && g.stableStart.Some?
          && exists a: nat :: SizeHeldSince(trace, a, g.lastSize) && trace[a].time == g.stableStart.value)
    decreases |trace|
  {
    if |trace| > 0 {
      var n := |trace| - 1;
      var prefix := trace[..n];
      WaitingState(prefix, period);
      var g0 := Gate(prefix, period).state;
      var g := Gate(trace, period).state;
      var x := trace[n];
      assert forall i :: 0 <= i < n ==> prefix[i] == trace[i];
      if x.size == 0 {
        assert g == g0;
        if g0 != Initial {
          var a: nat :| SizeHeldSince(prefix, a, g0.lastSize) && prefix[a].time == g0.stableStart.value;
          assert SizeHeldSince(trace, a, g.lastSize);
        }
      } else if x.size != g0.lastSize {
        assert SizeHeldSince(trace, n, g.lastSize);
      } else {
        assert g == g0;
        if g0 == Initial {
          assert false;
        }
        var a: nat :| SizeHeldSince(prefix, a, g0.lastSize) && prefix[a].time == g0.stableStart.value;
        assert SizeHeldSince(trace, a, g.lastSize);
      }
    }
  }

  /** Poll times never go backwards. */
  ghost predicate TimesNondecreasing(trace: seq<Sample>) {
    forall a, b :: 0 <= a < b < |trace| && trace[a].Present? && trace[b].Present? ==> trace[a].time <= trace[b].time
  }

  /**
   * Liveness: if, from sample `i` on, the file keeps one positive size `n` (empty samples aside) until a
   * sample `j` that is at least the quiet period later, the gate answers `true` no later than at `j`.
   */
  lemma StableAfterQuietPeriod(trace: seq<Sample>, period: int, i: nat, j: nat, n: nat)
    requires TimesNondecreasing(trace)
    requires i < j < |trace| && n > 0
    requires Gate(trace[..i], period).StillWaiting?
    requires forall m :: i <= m <= j ==> trace[m].Present? && (trace[m].size == 0 || trace[m].size == n)
    requires trace[i].size == n && trace[j].size == n
    requires trace[j].time - trace[i].time >= period
    ensures Gate(trace, period).Stable?
    ensures i <= Gate(trace, period).at <= j
  {
    HoldsSizeUntil(trace, period, i, j, n, j + 1);
    GateDecisionIsFinal(trace, period, j + 1);
  }

  /** Up to sample `k`, the gate has answered at or after `i`, or it still holds size `n` since no later than sample `i`. */
  predicate HeldOrAnswered(trace: seq<Sample>, period: int, i: nat, j: nat, n: nat, k: nat)
    requires i < |trace| && k <= |trace| && trace[i].Present?
  {
    var v := Gate(trace[..k], period);
    || (v.Stable? && i <= v.at < k)
    || (&& k <= j && v.StillWaiting? && v.state.lastSize == n
        && v.state.stableStart.Some? && v.state.stableStart.value <= trace[i].time)
  }

  /** The induction behind `StableAfterQuietPeriod`: up to sample `k`, the gate has answered or still holds `n`. */
  lemma {:induction false} HoldsSizeUntil(trace: seq<Sample>, period: int, i: nat, j: nat, n: nat, k: nat)
    requires TimesNondecreasing(trace)
    requires i < k <= j + 1 && i < j < |trace| && n > 0
    requires Gate(trace[..i], period).StillWaiting?
    requires forall m :: i <= m <= j ==> trace[m].Present? && (trace[m].size == 0 || trace[m].size == n)
    requires trace[i].size == n && trace[j].size == n
    requires trace[j].time - trace[i].time >= period
    ensures HeldOrAnswered(trace, period, i, j, n, k)
    decreases k
  {
    assert trace[..k][..k - 1] == trace[..k - 1];
    if k == i + 1 {
      WaitingSinceEarlier(trace, period, i);
    } else {
      HoldsSizeUntil(trace, period, i, j, n, k - 1);
      HoldsSizeStep(trace, period, i, j, n, k);
    }
  }

  /** One more sample of size `n` or `0` keeps the gate holding `n`, or makes it answer once the period has passed. */
  lemma HoldsSizeStep(trace: seq<Sample>, period: int, i: nat, j: nat, n: nat, k: nat)
    requires i + 1 < k <= j + 1 && i < j < |trace| && n > 0
    requires trace[k - 1].Present? && (trace[k - 1].size == 0 || trace[k - 1].size == n)
    requires trace[i].Present? && trace[j].Present? && trace[j].size == n
    requires trace[j].time - trace[i].time >= period && trace[i].time <= trace[k - 1].time
    requires HeldOrAnswered(trace, period, i, j, n, k - 1)
    ensures HeldOrAnswered(trace, period, i, j, n, k)
  {
    assert trace[..k][..k - 1] == trace[..k - 1];
    assert trace[..k][k - 1] == trace[k - 1];
  }

  /** A waiting gate's quiet period started no later than the next sample's time. */
  lemma WaitingSinceEarlier(trace: seq<Sample>, period: int, i: nat)
    requires TimesNondecreasing(trace) && i < |trace| && trace[i].Present?
    requires Gate(trace[..i], period).StillWaiting?
    ensures var g0 := Gate(trace[..i], period).state;
      g0.lastSize > 0 ==> g0.stableStart.Some? && g0.stableStart.value <= trace[i].time
  {
    var prefix := trace[..i];
    var g0 := Gate(prefix, period).state;
    if g0.lastSize > 0 {
      WaitingState(prefix, period);
      var a: nat :| SizeHeldSince(prefix, a, g0.lastSize) && prefix[a].time == g0.stableStart.value;
      assert prefix[a] == trace[a];
    }
  }

  /** An empty sample between two equal sizes does not restart the quiet period: the size counts as held since the first. */
  lemma ZeroSampleKeepsQuietPeriod(period: int)
    requires period <= 2
    ensures Gate([Present(5, 1), Present(0, 2), Present(5, 3)], period) == Stable(2)
  {
    var t := [Present(5, 1), Present(0, 2), Present(5, 3)];
    assert t[..0] == [] && t[..1] == [Present(5, 1)] && t[..2] == [Present(5, 1), Present(0, 2)];
    assert t[..2][..1] == t[..1] && t[..1][..0] == t[..0] && t[..3] == t;
    assert Gate(t[..1], period) == StillWaiting(GateState(5, Some(1)));
    assert Gate(t[..2], period) == StillWaiting(GateState(5, Some(1)));
  }
}

=== FILE: structured.dfy ===
/**
 * The structured page record built from one OCR response: blocks, paragraphs, words and symbols with
 * positional ids, reconstructed texts, copied bounding boxes and confidences, and optional break tags.
 */
module Structured {
  import opened Base
  import opened Text
  import opened Vision

  datatype Point = Point(x: int, y: int)

  datatype Box = Box(vertices: seq<Point>)

  datatype SymbolData = SymbolData(text: string, confidence: real, breakType: Option<BreakType>)

  datatype WordData = WordData(wordId: nat, text: string, confidence: real, boundingBox: Box, symbols: seq<SymbolData>)

  datatype ParagraphData = ParagraphData(paragraphId: nat, confidence: real, boundingBox: Box, words: seq<WordData>, text: string)

  datatype BlockData = BlockData(blockId: nat, confidence: real, boundingBox: Box, paragraphs: seq<ParagraphData>)

  datatype PageData = PageData(pageNumber: nat, fullText: string, blocks: seq<BlockData>)

  // ---------------------------------------------------------------------------
  // Texts read off a level of the tree

  function SymbolTexts(symbols: seq<Vision.Symbol>): seq<string> {
    seq(|symbols|, i requires 0 <= i < |symbols| => symbols[i].text)
  }

  function SymbolDataTexts(symbols: seq<SymbolData>): seq<string> {
    seq(|symbols|, i requires 0 <= i < |symbols| => symbols[i].text)
  }

  function WordDataTexts(words: seq<WordData>): seq<string> {
    seq(|words|, i requires 0 <= i < |words| => words[i].text)
  }

  // ---------------------------------------------------------------------------
  // Consistency of an output tree, stated on the output alone

  /** A word's text is its symbols' texts back to back. */
  predicate WordConsistent(w: WordData) {
    w.text == Concat(SymbolDataTexts(w.symbols))
  }

  /** Words are numbered by position and consistent; the paragraph text is their texts joined by single spaces, stripped. */
  predicate ParagraphConsistent(p: ParagraphData) {
    && (forall i :: 0 <= i < |p.words| ==> p.words[i].wordId == i && WordConsistent(p.words[i]))
    && p.text == Strip(Join(WordDataTexts(p.words), " "))
  }

  /** Paragraphs are numbered by position and consistent. */
  predicate BlockConsistent(b: BlockData) {
    forall i :: 0 <= i < |b.paragraphs| ==> b.paragraphs[i].paragraphId == i && ParagraphConsistent(b.paragraphs[i])
  }

  /** Blocks are numbered by position and consistent. */
  predicate BlocksConsistent(bs: seq<BlockData>) {
    forall i :: 0 <= i < |bs| ==> bs[i].blockId == i && BlockConsistent(bs[i])
  }

  // ---------------------------------------------------------------------------
  // Reading an output tree back into the response shape it came from

  function PolyOf(b: Box): BoundingPoly {
    BoundingPoly(seq(|b.vertices|, i requires 0 <= i < |b.vertices| => Vertex(b.vertices[i].x, b.vertices[i].y)))
  }

  function RestoreSymbol(s: SymbolData): Vision.Symbol {
    Vision.Symbol(s.text, s.confidence, match s.breakType case None => 0 case Some(b) => BreakCode(b))
  }

  function RestoreWord(w: WordData): Vision.Word {
    Vision.Word(w.confidence, PolyOf(w.boundingBox),
                seq(|w.symbols|, i requires 0 <= i < |w.symbols| => RestoreSymbol(w.symbols[i])))
  }

  function RestoreParagraph(p: ParagraphData): Vision.Paragraph {
    Vision.Paragraph(p.confidence, PolyOf(p.boundingBox),
                     seq(|p.words|, i requires 0 <= i < |p.words| => RestoreWord(p.words[i])))
  }

  function RestoreBlock(b: BlockData): Vision.Block {
    Vision.Block(b.confidence, PolyOf(b.boundingBox),
                 seq(|b.paragraphs|, i requires 0 <= i < |b.paragraphs| => RestoreParagraph(b.paragraphs[i])))
  }

  function RestoreBlocks(bs: seq<BlockData>): seq<Vision.Block> {
    seq(|bs|, i requires 0 <= i < |bs| => RestoreBlock(bs[i]))
  }

  // ---------------------------------------------------------------------------
  // The builder

  /** A bounding box keeps the polygon's vertices, their number and order, with x and y copied. */
  function BoxOf(poly: BoundingPoly): (b: Box)
    ensures |b.vertices| == |poly.vertices|
    ensures PolyOf(b) == poly
  {
    var b := Box(seq(|poly.vertices|, i requires 0 <= i < |poly.vertices| => Point(poly.vertices[i].x, poly.vertices[i].y)));
    assert PolyOf(b).vertices == poly.vertices;
    b
  }

  /** A symbol record copies text and confidence and carries a break tag exactly when the break code is non-zero. */
  function BuildSymbol(s: Vision.Symbol): (r: SymbolData)
    requires KnownBreakCode(s.breakCode)
    ensures r.text == s.text && r.confidence == s.confidence
    ensures r.breakType.Some? <==> s.breakCode != 0
    ensures RestoreSymbol(r) == s
  {
    SymbolData(s.text, s.confidence, if s.breakCode != 0 then Some(BreakOfCode(s.breakCode)) else None)
  }

  /** A word record is numbered `id`, keeps its symbols in order, and its text is their texts back to back. */
  function BuildWord(id: nat, w: Vision.Word): (r: WordData)
    requires WordCodesKnown(w)
    ensures r.wordId == id
    ensures |r.symbols| == |w.symbols|
    ensures WordConsistent(r)
    ensures r.text == Concat(SymbolTexts(w.symbols))
    ensures RestoreWord(r) == w
  {
    var symbols := seq(|w.symbols|, i requires 0 <= i < |w.symbols| => BuildSymbol(w.symbols[i]));
    var text := Concat(SymbolTexts(w.symbols));
    var r := WordData(id, text, w.confidence, BoxOf(w.boundingBox), symbols);
    assert SymbolDataTexts(symbols) == SymbolTexts(w.symbols);
    assert RestoreWord(r).symbols == w.symbols;
    r
  }

  /**
   * A paragraph record is numbered `id`, keeps its words in order numbered 0..n-1, and its text is
   * `strip()` of every word text followed by one space, which is the word texts joined by single spaces, stripped.
   */
  function BuildParagraph(id: nat, p: Vision.Paragraph): (r: ParagraphData)
    requires ParagraphCodesKnown(p)
    ensures r.paragraphId == id
    ensures |r.words| == |p.words|
    ensures ParagraphConsistent(r)
    ensures r.text == Strip(Terminated(WordDataTexts(r.words), " "))
    ensures RestoreParagraph(r) == p
  {
    var words := seq(|p.words|, i requires 0 <= i < |p.words| => BuildWord(i, p.words[i]));
    var text := Strip(Terminated(WordDataTexts(words), " "));
    TerminatedStripIsJoinedStrip(WordDataTexts(words));
    var r := ParagraphData(id, p.confidence, BoxOf(p.boundingBox), words, text);
    assert RestoreParagraph(r).words == p.words;
    r
  }

  /** A block record is numbered `id` and keeps its paragraphs in order, numbered 0..n-1. */
  function BuildBlock(id: nat, b: Vision.Block): (r: BlockData)
    requires BlockCodesKnown(b)
    ensures r.blockId == id
    ensures |r.paragraphs| == |b.paragraphs|
    ensures BlockConsistent(r)
    ensures RestoreBlock(r) == b
  {
    var paragraphs := seq(|b.paragraphs|, i requires 0 <= i < |b.paragraphs| => BuildParagraph(i, b.paragraphs[i]));
    var r := BlockData(id, b.confidence, BoxOf(b.boundingBox), paragraphs);
    assert RestoreBlock(r).paragraphs == b.paragraphs;
    r
  }

  /** The blocks of one annotation page, in order, numbered by their position on that page. */
  function BuildBlocks(page: Vision.Page): (r: seq<BlockData>)
    requires PageCodesKnown(page)
    ensures |r| == |page.blocks|
    ensures BlocksConsistent(r)
    ensures RestoreBlocks(r) == page.blocks
  {
    var r := seq(|page.blocks|, i requires 0 <= i < |page.blocks| => BuildBlock(i, page.blocks[i]));
    assert RestoreBlocks(r) == page.blocks;
    r
  }

  /** All blocks of the annotation's pages, one page after the other. */
  function AllBlocks(pages: seq<Vision.Page>): seq<Vision.Block> {
    if |pages| == 0 then [] else pages[0].blocks + AllBlocks(pages[1..])
  }

  /**
   * The record's block list: every annotation page's blocks in order, each numbered by its position on
   * its own page, so that the list read back is exactly the annotation's blocks.
   */
  function BlocksOfPages(pages: seq<Vision.Page>): (r: seq<BlockData>)
    requires forall i :: 0 <= i < |pages| ==> PageCodesKnown(pages[i])
    ensures RestoreBlocks(r) == AllBlocks(pages)
    ensures |pages| == 1 ==> r == BuildBlocks(pages[0])
    ensures forall i :: 0 <= i < |r| ==> BlockConsistent(r[i])
    decreases |pages|
  {
    if |pages| == 0 then []
    else
      var first := BuildBlocks(pages[0]);
      var rest := BlocksOfPages(pages[1..]);
      assert RestoreBlocks(first + rest) == RestoreBlocks(first) + RestoreBlocks(rest);
      assert |pages| == 1 ==> rest == [] && first + rest == first;
      first + rest
  }

  /** The structured record of one successfully recognised page. */
  function BuildPage(pageNumber: nat, resp: Response): (r: PageData)
    requires AnnotationCodesKnown(resp.annotation)
    ensures r.pageNumber == pageNumber
    ensures r.fullText == resp.annotation.text
    ensures RestoreBlocks(r.blocks) == AllBlocks(resp.annotation.pages)
    ensures forall i :: 0 <= i < |r.blocks| ==> BlockConsistent(r.blocks[i])
  {
    PageData(pageNumber, resp.annotation.text, BlocksOfPages(resp.annotation.pages))
  }

  /** Where annotation page `k`'s blocks start in the record's block list: after the blocks of the pages before it. */
  function PageStart(pages: seq<Vision.Page>, k: nat): nat
    requires k <= |pages|
  {
    |AllBlocks(pages[..k])|
  }

  /**
   * Annotation page `k`'s stretch of the record's block list is that page's blocks built on their own:
   * block ids restart at 0 on every annotation page, and the stretch reads back as that page's blocks.
   */
  lemma {:induction false} BlocksOfPagesSegment(pages: seq<Vision.Page>, k: nat)
    requires forall i :: 0 <= i < |pages| ==> PageCodesKnown(pages[i])
    requires k < |pages|
    ensures PageStart(pages, k) + |pages[k].blocks| <= |BlocksOfPages(pages)|
    ensures BlocksOfPages(pages)[PageStart(pages, k)..PageStart(pages, k) + |pages[k].blocks|] == BuildBlocks(pages[k])
    decreases k
  {
    if k == 0 {
      SegmentOfFirstPage(pages);
    } else {
      var tail := pages[1..];
      assert forall i :: 0 <= i < |tail| ==> PageCodesKnown(tail[i]) by {
        assert forall i :: 0 <= i < |tail| ==> tail[i] == pages[i + 1];
      }
      BlocksOfPagesSegment(tail, k - 1);
      SegmentOfLaterPage(pages, k);
    }
  }

  /** The first annotation page's blocks open the record's block list. */
  lemma SegmentOfFirstPage(pages: seq<Vision.Page>)
    requires forall i :: 0 <= i < |pages| ==> PageCodesKnown(pages[i])
    requires 0 < |pages|
    ensures PageStart(pages, 0) + |pages[0].blocks| <= |BlocksOfPages(pages)|
    ensures BlocksOfPages(pages)[PageStart(pages, 0)..PageStart(pages, 0) + |pages[0].blocks|] == BuildBlocks(pages[0])
  {
    assert pages[..0] == [];
    assert BlocksOfPages(pages) == BuildBlocks(pages[0]) + BlocksOfPages(pages[1..]);
  }

  /** A later page's stretch of the record is its stretch among the later pages, shifted past the first page's blocks. */
  lemma SegmentOfLaterPage(pages: seq<Vision.Page>, k: nat)
    requires 0 < k < |pages|
    requires forall i :: 0 <= i < |pages| ==> PageCodesKnown(pages[i])
    requires forall i :: 0 <= i < |pages[1..]| ==> PageCodesKnown(pages[1..][i])
    requires PageStart(pages[1..], k - 1) + |pages[1..][k - 1].blocks| <= |BlocksOfPages(pages[1..])|
    requires BlocksOfPages(pages[1..])[PageStart(pages[1..], k - 1)..PageStart(pages[1..], k - 1) + |pages[1..][k - 1].blocks|]
          == BuildBlocks(pages[1..][k - 1])
    ensures PageStart(pages, k) + |pages[k].blocks| <= |BlocksOfPages(pages)|
    ensures BlocksOfPages(pages)[PageStart(pages, k)..PageStart(pages, k) + |pages[k].blocks|] == BuildBlocks(pages[k])
  {
    var first := BuildBlocks(pages[0]);
    var rest := BlocksOfPages(pages[1..]);
    assert BlocksOfPages(pages) == first + rest;
    PageStartShift(pages, k);
    SliceShift(first, rest, PageStart(pages[1..], k - 1), |pages[k].blocks|);
  }

  /** Page `k` starts after the first page's blocks plus where it starts among the later pages. */
  lemma PageStartShift(pages: seq<Vision.Page>, k: nat)
    requires 0 < k < |pages|
    ensures PageStart(pages, k) == |pages[0].blocks| + PageStart(pages[1..], k - 1)
    ensures pages[1..][k - 1] == pages[k]
  {
    assert pages[..k] == [pages[0]] + pages[1..][..k - 1];
    assert pages[..k][1..] == pages[1..][..k - 1];
  }

  /** A stretch of the second list is the same stretch, shifted by the first list's length, of the two back to back. */
  lemma SliceShift(first: seq<BlockData>, rest: seq<BlockData>, start: nat, len: nat)
    requires start + len <= |rest|
    ensures (first + rest)[|first| + start..|first| + start + len] == rest[start..start + len]
  {
  }

  /** In a page record, every annotation page's blocks are numbered 0..n-1 on their own and read back as that page. */
  lemma BuildPageNumbersBlocksPerPage(pageNumber: nat, resp: Response, k: nat)
    requires AnnotationCodesKnown(resp.annotation) && k < |resp.annotation.pages|
    ensures var pages := resp.annotation.pages;
      var start := PageStart(pages, k);
      var blocks := BuildPage(pageNumber, resp).blocks;
      && start + |pages[k].blocks| <= |blocks|
      && BlocksConsistent(blocks[start..start + |pages[k].blocks|])
      && RestoreBlocks(blocks[start..start + |pages[k].blocks|]) == pages[k].blocks
  {
    BlocksOfPagesSegment(resp.annotation.pages, k);
  }

  /** On a single-page annotation, blocks are numbered 0..n-1 and the tree reads back as that page. */
  lemma SinglePageBlocksNumbered(pageNumber: nat, resp: Response)
    requires AnnotationCodesKnown(resp.annotation) && |resp.annotation.pages| == 1
    ensures BlocksConsistent(BuildPage(pageNumber, resp).blocks)
    ensures RestoreBlocks(BuildPage(pageNumber, resp).blocks) == resp.annotation.pages[0].blocks
  {
  }

  /** When every word of a paragraph is non-empty and trimmed, its text is the words joined by single spaces. */
  lemma ParagraphTextOfTrimmedWords(id: nat, p: Vision.Paragraph)
    requires ParagraphCodesKnown(p)
    requires forall i :: 0 <= i < |p.words| ==>
      var t := Concat(SymbolTexts(p.words[i].symbols));
      |t| > 0 && !IsSpace(t[0]) && !IsSpace(t[|t| - 1])
    ensures BuildParagraph(id, p).text == Join(WordDataTexts(BuildParagraph(id, p).words), " ")
  {
    var r := BuildParagraph(id, p);
    var texts := WordDataTexts(r.words);
    if |texts| > 0 {
      assert texts[0] == Concat(SymbolTexts(p.words[0].symbols));
      assert texts[|texts| - 1] == Concat(SymbolTexts(p.words[|texts| - 1].symbols));
      JoinOfTrimmedEndsIsTrimmed(texts, " ");
    }
  }
}

=== FILE: text.dfy ===
/** The Python `str` operations the watcher relies on, over `string` (a sequence of Unicode scalar values). */
module Text {
  import opened Base

  predicate StartsWith(s: string, prefix: string) {
    |prefix| <= |s| && s[..|prefix|] == prefix
  }

  predicate EndsWith(s: string, suffix: string) {
    |suffix| <= |s| && s[|s| - |suffix|..] == suffix
  }

  /** Sum of the lengths of the parts. */
  function TotalLength(parts: seq<string>): nat {
    if |parts| == 0 then 0 else |parts[0]| + TotalLength(parts[1..])
  }

  /** `''.join(parts)`: the parts back to back, no separator. */
  function Concat(parts: seq<string>): (r: string)
    ensures |r| == TotalLength(parts)
  {
    if |parts| == 0 then "" else parts[0] + Concat(parts[1..])
  }

  /**
   * `sep.join(parts)`: one separator between neighbouring parts, none at the ends, so `k` parts give
   * the parts' characters plus exactly `k - 1` separators.
   */
  function Join(parts: seq<string>, sep: string): (r: string)
    ensures |parts| > 0 ==> |r| == TotalLength(parts) + (|parts| - 1) * |sep|
    decreases |parts|
  {
    if |parts| == 0 then ""
    else if |parts| == 1 then parts[0]
    else parts[0] + sep + Join(parts[1..], sep)
  }

  /** The string built by `acc += part + sep` for every part in order: each part followed by the separator. */
  function Terminated(parts: seq<string>, sep: string): string {
    if |parts| == 0 then "" else parts[0] + sep + Terminated(parts[1..], sep)
  }

  /** Appending a separator after every part is the same as joining and adding one trailing separator. */
  lemma {:induction false} TerminatedIsJoinThenSep(parts: seq<string>, sep: string)
    requires |parts| > 0
    ensures Terminated(parts, sep) == Join(parts, sep) + sep
    decreases |parts|
  {
    if |parts| > 1 {
      TerminatedIsJoinThenSep(parts[1..], sep);
    }
  }

  /** A joined string starts with the first part and ends with the last. */
  lemma JoinEnds(parts: seq<string>, sep: string)
    requires |parts| > 0
    ensures StartsWith(Join(parts, sep), parts[0])
    ensures EndsWith(Join(parts, sep), parts[|parts| - 1])
  {
    JoinStartsWithFirst(parts, sep);
    JoinEndsWithLast(parts, sep);
  }

  lemma JoinStartsWithFirst(parts: seq<string>, sep: string)
    requires |parts| > 0
    ensures StartsWith(Join(parts, sep), parts[0])
  {
    if |parts| > 1 {
      assert Join(parts, sep) == parts[0] + (sep + Join(parts[1..], sep));
    }
  }

  lemma {:induction false} JoinEndsWithLast(parts: seq<string>, sep: string)
    requires |parts| > 0
    ensures EndsWith(Join(parts, sep), parts[|parts| - 1])
    decreases |parts|
  {
    if |parts| > 1 {
      JoinEndsWithLast(parts[1..], sep);
      assert parts[1..][|parts[1..]| - 1] == parts[|parts| - 1];
      EndsWithAfterPrefix(parts[0] + sep, Join(parts[1..], sep), parts[|parts| - 1]);
    }
  }

  /** Putting anything in front of a string keeps its ending. */
  lemma EndsWithAfterPrefix(a: string, b: string, suffix: string)
    requires EndsWith(b, suffix)
    ensures EndsWith(a + b, suffix)
  {
    assert (a + b)[|a + b| - |suffix|..] == b[|b| - |suffix|..];
  }

  // ---------------------------------------------------------------------------
  // Whitespace and str.strip()

  /** Python's `str.isspace` for one character: the characters `str.strip()` removes by default. */
  predicate IsSpace(c: char) {
    || ('\t' <= c <= '\r')
    || ('\U{1C}' <= c <= '\U{1F}')
    || c == ' '
    || c == '\U{85}'
    || c == '\U{A0}'
    || c == '\U{1680}'
    || ('\U{2000}' <= c <= '\U{200A}')
    || c == '\U{2028}'
    || c == '\U{2029}'
    || c == '\U{202F}'
    || c == '\U{205F}'
    || c == '\U{3000}'
  }

  /** Number of whitespace characters at the start of `s`. */
  function LeadingSpaces(s: string): (n: nat)
    ensures n <= |s|
    ensures forall k :: 0 <= k < n ==> IsSpace(s[k])
    ensures n < |s| ==> !IsSpace(s[n])
    decreases |s|
  {
    if |s| > 0 && IsSpace(s[0]) then
      var m := LeadingSpaces(s[1..]);
      assert forall k :: 1 <= k < m + 1 ==> s[k] == s[1..][k - 1];
      m + 1
    else 0
  }

  /** Index at which the whitespace at the end of `s` begins. */
  function TrailingStart(s: string): (n: nat)
    ensures n <= |s|
    ensures forall k :: n <= k < |s| ==> IsSpace(s[k])
    ensures n > 0 ==> !IsSpace(s[n - 1])
    decreases |s|
  {
    if |s| > 0 && IsSpace(s[|s| - 1]) then TrailingStart(s[..|s| - 1]) else |s|
  }

  /** `s.strip()`: the slice of `s` left when whitespace is cut from both ends; it neither starts nor ends with whitespace. */
  function Strip(s: string): (r: string)
    ensures |r| > 0 ==> !IsSpace(r[0]) && !IsSpace(r[|r| - 1])
    ensures var i := LeadingSpaces(s);
              && i + |r| <= |s| && r == s[i..i + |r|]
              && (forall k :: 0 <= k < i ==> IsSpace(s[k]))
              && (forall k :: i + |r| <= k < |s| ==> IsSpace(s[k]))
  {
    var i := LeadingSpaces(s);
    var l := s[i..];
    var j := TrailingStart(l);
    TrailingOfSuffix(s, i, j);
    l[..j]
  }

  /** Whitespace ending the suffix from `i` ends `s`, and the suffix's first `j` characters are a slice of `s`. */
  lemma TrailingOfSuffix(s: string, i: nat, j: nat)
    requires i + j <= |s|
    requires forall k :: j <= k < |s[i..]| ==> IsSpace(s[i..][k])
    ensures s[i..][..j] == s[i..i + j]
    ensures forall k :: i + j <= k < |s| ==> IsSpace(s[k])
  {
    assert forall k :: i + j <= k < |s| ==> s[k] == s[i..][k - i];
  }

  /** The leading-whitespace count is determined by its two defining facts. */
  lemma LeadingSpacesUnique(s: string, n: nat)
    requires n <= |s|
    requires forall k :: 0 <= k < n ==> IsSpace(s[k])
    requires n < |s| ==> !IsSpace(s[n])
    ensures LeadingSpaces(s) == n
  {
  }

  /** The start of the trailing whitespace is determined by its two defining facts. */
  lemma TrailingStartUnique(s: string, n: nat)
    requires n <= |s|
    requires forall k :: n <= k < |s| ==> IsSpace(s[k])
    requires n > 0 ==> !IsSpace(s[n - 1])
    ensures TrailingStart(s) == n
  {
  }

  /** A trailing whitespace character never survives `strip()`. */
  lemma StripDropsTrailingSpace(s: string, c: char)
    requires IsSpace(c)
    ensures Strip(s + [c]) == Strip(s)
  {
    var t := s + [c];
    var n := LeadingSpaces(s);
    if n == |s| {
      LeadingSpacesUnique(t, |t|);
    } else {
      LeadingSpacesUnique(t, n);
      assert t[n..] == s[n..] + [c];
      TrailingSpaceIgnored(s[n..], c);
    }
  }

  /** A trailing whitespace character moves neither the start of the trailing whitespace nor what precedes it. */
  lemma TrailingSpaceIgnored(l: string, c: char)
    requires IsSpace(c)
    ensures TrailingStart(l + [c]) == TrailingStart(l)
    ensures (l + [c])[..TrailingStart(l)] == l[..TrailingStart(l)]
  {
    assert (l + [c])[..|l|] == l;
  }

  /** A string that neither starts nor ends with whitespace is its own `strip()`. */
  lemma StripOfTrimmed(s: string)
    requires |s| > 0 ==> !IsSpace(s[0]) && !IsSpace(s[|s| - 1])
    ensures Strip(s) == s
  {
    LeadingSpacesUnique(s, 0);
    assert s[0..] == s;
    TrailingStartUnique(s, |s|);
  }

  /** Stripping the text built by `acc += part + ' '` is stripping the parts joined by single spaces. */
  lemma TerminatedStripIsJoinedStrip(parts: seq<string>)
    ensures Strip(Terminated(parts, " ")) == Strip(Join(parts, " "))
  {
    if |parts| > 0 {
      TerminatedIsJoinThenSep(parts, " ");
      StripDropsTrailingSpace(Join(parts, " "), ' ');
    }
  }

  /** When the first part does not start and the last part does not end with whitespace, the joined text needs no stripping. */
  lemma JoinOfTrimmedEndsIsTrimmed(parts: seq<string>, sep: string)
    requires |parts| > 0
    requires |parts[0]| > 0 && !IsSpace(parts[0][0])
    requires |parts[|parts| - 1]| > 0 && !IsSpace(parts[|parts| - 1][|parts[|parts| - 1]| - 1])
    ensures Strip(Join(parts, sep)) == Join(parts, sep)
  {
    var j := Join(parts, sep);
    JoinEnds(parts, sep);
    assert j[0] == j[..|parts[0]|][0];
    var last := parts[|parts| - 1];
    assert j[|j| - 1] == j[|j| - |last|..][|last| - 1];
    StripOfTrimmed(j);
  }

  // ---------------------------------------------------------------------------
  // str.split(c) for a one-character separator

  /** `s.split(c)`: the pieces between occurrences of `c`; there is always at least one piece. */
  function Split(s: string, c: char): (r: seq<string>)
    ensures |r| >= 1
    ensures forall i :: 0 <= i < |r| ==> c !in r[i]
    ensures Join(r, [c]) == s
    decreases |s|
  {
    if |s| == 0 then [""]
    else
      var rest := Split(s[1..], c);
      if s[0] == c then
        assert Join([""] + rest, [c]) == [c] + s[1..] by {
          assert ([""] + rest)[1..] == rest;
        }
        assert s == [c] + s[1..];
        [""] + rest
      else
        var r := [[s[0]] + rest[0]] + rest[1..];
        assert Join(r, [c]) == [s[0]] + Join(rest, [c]) by {
          if |rest| > 1 {
            assert r[1..] == rest[1..];
          }
        }
        assert s == [s[0]] + s[1..];
        r
  }

  /** A string without the separator is one piece. */
  lemma {:induction false} SplitWithout(s: string, c: char)
    requires c !in s
    ensures Split(s, c) == [s]
    decreases |s|
  {
    if |s| > 0 {
      assert c !in s[1..] by {
        assert forall k :: 0 <= k < |s| - 1 ==> s[1..][k] == s[k + 1];
      }
      SplitWithout(s[1..], c);
    }
  }

  /** The piece before the first separator comes first, then the split of the rest. */
  lemma {:induction false} SplitAtFirst(a: string, c: char, b: string)
    requires c !in a
    ensures Split(a + [c] + b, c) == [a] + Split(b, c)
    decreases |a|
  {
    var s := a + [c] + b;
    if |a| == 0 {
      assert s == [c] + b;
      assert s[1..] == b;
    } else {
      assert s[0] == a[0];
      assert s[1..] == a[1..] + [c] + b;
      assert c !in a[1..] by {
        assert forall k :: 0 <= k < |a| - 1 ==> a[1..][k] == a[k + 1];
      }
      SplitAtFirst(a[1..], c, b);
      assert [a[0]] + a[1..] == a;
    }
  }

  // ---------------------------------------------------------------------------
  // str.replace(target, repl)

  /** An occurrence of `target` starts at index `k` of `s`. */
  predicate OccursAt(s: string, target: string, k: nat) {
    k + |target| <= |s| && s[k..k + |target|] == target
  }

  /**
   * `s.replace(target, repl)`: every non-overlapping occurrence of `target`, scanned left to right,
   * replaced by `repl`; a replacement as long as the target keeps the length.
   */
  function Replace(s: string, target: string, repl: string): (r: string)
    requires |target| > 0
    ensures |repl| == |target| ==> |r| == |s|
    decreases |s|
  {
    if |s| < |target| then s
    else if s[..|target|] == target then repl + Replace(s[|target|..], target, repl)
    else [s[0]] + Replace(s[1..], target, repl)
  }

  /** A string in which `target` does not occur comes back from `replace` unchanged. */
  lemma {:induction false} ReplaceWithoutOccurrence(s: string, target: string, repl: string)
    requires |target| > 0
    requires forall k: nat :: k < |s| ==> !OccursAt(s, target, k)
    ensures Replace(s, target, repl) == s
    decreases |s|
  {
    if |s| >= |target| {
      assert !OccursAt(s, target, 0);
      NoOccurrenceInTail(s, target);
      ReplaceWithoutOccurrence(s[1..], target, repl);
      assert [s[0]] + s[1..] == s;
    }
  }

  /** An occurrence in the tail of `s` is an occurrence in `s` one place further on. */
  lemma NoOccurrenceInTail(s: string, target: string)
    requires |s| > 0
    requires forall k: nat :: k < |s| ==> !OccursAt(s, target, k)
    ensures forall k: nat :: k < |s| - 1 ==> !OccursAt(s[1..], target, k)
  {
    forall k: nat | k < |s| - 1 && OccursAt(s[1..], target, k)
      ensures OccursAt(s, target, k + 1)
    {
      assert s[1..][k..k + |target|] == s[k + 1..k + 1 + |target|];
    }
  }

  /** A character that cannot start an occurrence of `target` is copied and the scan moves on. */
  lemma ReplaceSkipsChar(c: char, s: string, target: string, repl: string)
    requires |target| > 0 && c != target[0]
    ensures Replace([c] + s, target, repl) == [c] + Replace(s, target, repl)
  {
    var t := [c] + s;
    assert t[1..] == s;
    if |t| >= |target| {
      assert t[..|target|][0] == c;
    }
  }

  /** A prefix that does not contain the first character of `target` passes through `replace` untouched. */
  lemma {:induction false} ReplaceKeepsPrefix(p: string, s: string, target: string, repl: string)
    requires |target| > 0 && target[0] !in p
    ensures Replace(p + s, target, repl) == p + Replace(s, target, repl)
    decreases |p|
  {
    if |p| == 0 {
      assert p + s == s;
    } else {
      assert target[0] !in p[1..] by {
        assert forall k :: 0 <= k < |p| - 1 ==> p[1..][k] == p[k + 1];
      }
      ReplaceKeepsPrefix(p[1..], s, target, repl);
      ReplaceKeepsPrefixStep(p, s, target, repl);
    }
  }

  /** The inductive step of `ReplaceKeepsPrefix`: the prefix's first character is copied in front. */
  lemma ReplaceKeepsPrefixStep(p: string, s: string, target: string, repl: string)
    requires |target| > 0 && |p| > 0 && p[0] != target[0]
    requires Replace(p[1..] + s, target, repl) == p[1..] + Replace(s, target, repl)
    ensures Replace(p + s, target, repl) == p + Replace(s, target, repl)
  {
    var rest := p[1..];
    assert p + s == [p[0]] + (rest + s);
    ReplaceSkipsChar(p[0], rest + s, target, repl);
    assert [p[0]] + rest == p;
  }

  /** A string that does not contain the first character of `target` is unchanged by `replace`. */
  lemma ReplaceWithoutFirstChar(s: string, target: string, repl: string)
    requires |target| > 0 && target[0] !in s
    ensures Replace(s, target, repl) == s
  {
    ReplaceKeepsPrefix(s, "", target, repl);
    assert s + "" == s;
  }

  // ---------------------------------------------------------------------------
  // int() on a decimal token and the "%d" rendering of a page index

  predicate IsDigit(c: char) {
    '0' <= c <= '9'
  }

  predicate AllDigits(s: string) {
    forall i :: 0 <= i < |s| ==> IsDigit(s[i])
  }

  function DigitValue(c: char): nat
    requires IsDigit(c)
  {
    (c as int) - ('0' as int)
  }

  function DigitChar(d: nat): (c: char)
    requires d < 10
    ensures IsDigit(c) && DigitValue(c) == d
  {
    (('0' as int) + d) as char
  }

  /** The value of a string of decimal digits, most significant first. */
  function DecimalValue(s: string): nat
    requires AllDigits(s)
    decreases |s|
  {
    if |s| == 0 then 0 else DecimalValue(s[..|s| - 1]) * 10 + DigitValue(s[|s| - 1])
  }

  /** `int(token)` on a token of ASCII digits; anything else raises, modelled as `None`. */
  function ParseInt(token: string): (r: Option<nat>)
    ensures r.Some? <==> |token| > 0 && AllDigits(token)
  {
    if |token| > 0 && AllDigits(token) then Some(DecimalValue(token)) else None
  }

  /** The decimal rendering of `n` without leading zeros, as `%d` writes it. */
  function ShowNat(n: nat): (r: string)
    ensures |r| > 0 && AllDigits(r)
    decreases n
  {
    if n < 10 then [DigitChar(n)] else ShowNat(n / 10) + [DigitChar(n % 10)]
  }

  /** Parsing the rendering of a number gives the number back. */
  lemma {:induction false} ParseShowNat(n: nat)
    ensures ParseInt(ShowNat(n)) == Some(n)
    decreases n
  {
    if n >= 10 {
      ParseShowNat(n / 10);
      var s := ShowNat(n);
      assert s[..|s| - 1] == ShowNat(n / 10);
      assert DigitValue(s[|s| - 1]) == n % 10;
      assert DecimalValue(s) == (n / 10) * 10 + n % 10;
    }
  }
}

=== FILE: vision.dfy ===
/**
 * The document-text-detection response of the OCR service, as the watcher reads it:
 * an error message (empty when the call succeeded) and a full-text annotation whose pages hold
 * blocks, paragraphs, words and symbols. Confidences are passed through untouched.
 */
module Vision {
  import opened Base

  datatype Vertex = Vertex(x: int, y: int)

  datatype BoundingPoly = BoundingPoly(vertices: seq<Vertex>)

  /** One recognised character; `breakCode` is the integer code of the break detected after it. */
  datatype Symbol = Symbol(text: string, confidence: real, breakCode: int)

  datatype Word = Word(confidence: real, boundingBox: BoundingPoly, symbols: seq<Symbol>)

  datatype Paragraph = Paragraph(confidence: real, boundingBox: BoundingPoly, words: seq<Word>)

  datatype Block = Block(confidence: real, boundingBox: BoundingPoly, paragraphs: seq<Paragraph>)

  datatype Page = Page(blocks: seq<Block>)

  /** An unset annotation reads as the empty one: no text and no pages. */
  datatype TextAnnotation = TextAnnotation(text: string, pages: seq<Page>)

  datatype Response = Response(errorMessage: string, annotation: TextAnnotation)

  /** The named break types; code 0 (`UNKNOWN`) means "no break" and has no tag. */
  datatype BreakType = Space | SureSpace | EolSureSpace | Hyphen | LineBreak

  /** The integer code of a named break type. */
  function BreakCode(b: BreakType): int {
    match b
    case Space => 1
    case SureSpace => 2
    case EolSureSpace => 3
    case Hyphen => 4
    case LineBreak => 5
  }

  /** The enumeration member name written to the structured output. */
  function BreakName(b: BreakType): string {
    match b
    case Space => "SPACE"
    case SureSpace => "SURE_SPACE"
    case EolSureSpace => "EOL_SURE_SPACE"
    case Hyphen => "HYPHEN"
    case LineBreak => "LINE_BREAK"
  }

  /** Codes the break-type enumeration accepts: 0 (`UNKNOWN`) through 5; any other raises. */
  predicate KnownBreakCode(code: int) {
    0 <= code <= 5
  }

  /** The named break type of a non-zero known code. */
  function BreakOfCode(code: int): (b: BreakType)
    requires KnownBreakCode(code) && code != 0
    ensures BreakCode(b) == code
  {
    if code == 1 then Space
    else if code == 2 then SureSpace
    else if code == 3 then EolSureSpace
    else if code == 4 then Hyphen
    else LineBreak
  }

  /** Codes and named break types are in one-to-one correspondence, and so are the names. */
  lemma BreakCodeRoundTrip(b: BreakType, c: BreakType)
    ensures KnownBreakCode(BreakCode(b)) && BreakCode(b) != 0
    ensures BreakOfCode(BreakCode(b)) == b
    ensures BreakName(b) == BreakName(c) ==> b == c
  {
  }

  predicate WordCodesKnown(w: Word) {
    forall i :: 0 <= i < |w.symbols| ==> KnownBreakCode(w.symbols[i].breakCode)
  }

  predicate ParagraphCodesKnown(p: Paragraph) {
    forall i :: 0 <= i < |p.words| ==> WordCodesKnown(p.words[i])
  }

  predicate BlockCodesKnown(b: Block) {
    forall i :: 0 <= i < |b.paragraphs| ==> ParagraphCodesKnown(b.paragraphs[i])
  }

  predicate PageCodesKnown(p: Page) {
    forall i :: 0 <= i < |p.blocks| ==> BlockCodesKnown(p.blocks[i])
  }

  /** Every symbol of the annotation carries a break code the enumeration accepts. */
  predicate AnnotationCodesKnown(a: TextAnnotation) {
    forall i :: 0 <= i < |a.pages| ==> PageCodesKnown(a.pages[i])
  }
}
